=== FILE: README.md ===
# ContextIsNeeded.com question pipeline — a Dafny model

This project models the data path of the ContextIsNeeded.com site. Questions are records of a title, a URL and a site name. They arrive in three ways:

- from a CSV feed (`lib/csv-parser.ts`);
- from a random-question HTTP endpoint, fetched in batches and de-duplicated (`lib/random-question-api.ts`);
- from users through the submission form (`components/submit-question-form.tsx`).

Before a record is written to Firestore, its fields are sanitised and checked (`lib/firestore.ts`). The migration script `scripts/migrate-standalone.ts` carries its own copies of the parser, the sanitiser and the write gate. The model proves each copy equal to the library version. The two React hooks are modelled as state machines:

- `hooks/use-questions.ts`: the question pool with its built-in fallbacks;
- `hooks/use-rate-limit.ts`: the fail-open rate-limit status.

Modelling choices:

- **Strings.** JavaScript strings are sequences of UTF-16 code units (`Js.CodeUnit`), so `substring(0, 1500)` and `length` count exactly as the code does.
- **Whitespace.** `trim()` and the regular-expression class `\s` use the ECMAScript WhiteSpace and LineTerminator code points.
- **URL parsing.** `new URL(s)` is a parameter `parses: JsString -> bool`, meaning "the constructor does not throw". Every property is proved for every such parser.
- **Randomness.** `Math.random()` is a fraction `num / den` with `num < den`. `Math.floor(Math.random() * n)` is `(num * n) / den`.
- **The rate limiter.** `checkRateLimit()` is not part of this model. The form and the hook receive its result, or the error it threw, as an input.
- **Asynchronous calls.** Each `fetch` and each Firestore write becomes an input describing how the call ended (`Response`, `Reply`, `Environment`). Each thrown-and-caught error becomes a `Result` or `Option` value.

Sanitising is not idempotent. The code's `sanitizeString` trims before it deletes control characters, so whitespace that sat behind a leading control character survives the first pass and is trimmed only by a second one. `Firestore.SanitizeStringNotIdempotent` exhibits this: `[U+0001, ' ', 'a']` becomes `[' ', 'a']` and then `['a']`. The model keeps the code's order.

## Model

| member | source | states |
|---|---|---|
| Js.Trim | lib/csv-parser.ts:23 | `trim()` yields no more than its input, only units of its input, nothing exactly when the input is all whitespace, and otherwise text that begins and ends with non-whitespace |
| Js.TrimIsSlice | lib/csv-parser.ts:23 | the input is its leading whitespace, then the trimmed text, then its trailing whitespace: `trim()` removes whitespace at both ends and nothing else |
| Js.JoinSplit | lib/csv-parser.ts:23 | `split("\n")` loses nothing: joining the pieces with the separator gives back the text |
| Js.DeleteAllCounts | lib/firestore.ts:82-83 | a global `replace(re, '')` removes every unit the class matches and keeps every other unit with its multiplicity |
| Js.DeleteAllAppend | lib/firestore.ts:82-83 | a global delete acts unit by unit, so it distributes over concatenation |
| Js.FloorRandomIndex | lib/firestore.ts:140 | `Math.floor(Math.random() * n)` is a valid index into a non-empty list |
| Js.FloorRandomIndexReaches | lib/firestore.ts:140 | every index of a list of length n is drawn by some random number |
| CsvParser.Scan | lib/csv-parser.ts:47-67 | the quote-toggling scanner yields one more field than there are commas outside quotes, and no field holds a `"` |
| CsvParser.ParseLine | lib/csv-parser.ts:47-67 | `parseCSVLine` always yields at least one field, one per unquoted comma plus one, all quote-free |
| CsvParser.JoinScan | lib/csv-parser.ts:52-66 | joining the scanned fields with `,` rebuilds the line with its quotes removed: the scanner only drops quotes and splits at unquoted commas |
| CsvParser.ParseLineJoin | lib/csv-parser.ts:47-67 | `parseCSVLine` round trip: the fields joined by commas equal the line without its `"` characters |
| CsvParser.CleanFieldOfScannedField | lib/csv-parser.ts:37-39 | on a field from the scanner, the `replace(/"/g, "")` after `trim()` changes nothing |
| CsvParser.RowCandidate | lib/csv-parser.ts:29-41 | a data line gives a record exactly when it is not blank and has at least three fields; the record's fields hold no quote |
| CsvParser.RowCandidateFields | lib/csv-parser.ts:36-40 | the record of a data line is its first three fields, each trimmed |
| CsvParser.ParseRows | lib/csv-parser.ts:28-44 | the row loop and the final filter keep at most one record per line, each with all three fields non-empty |
| CsvParser.Lines | lib/csv-parser.ts:23 | the trimmed text splits into at least one line, so `lines[0]` exists |
| CsvParser.ParseCsv | lib/csv-parser.ts:22-45 | `parseCSV` returns at most one record per data line, each complete and quote-free |
| CsvParser.RowsQuoteFree | lib/csv-parser.ts:36-44 | no record the parser returns contains a `"` |
| CsvParser.CandidatesAppend | lib/csv-parser.ts:28-42 | each line is parsed on its own: parsing two runs of lines gives the concatenation of their records |
| CsvParser.KeepCompleteAppend | lib/csv-parser.ts:44 | the completeness filter acts record by record |
| CsvParser.ParseRowsAppend | lib/csv-parser.ts:28-44 | parsing rows distributes over concatenation of the rows |
| CsvParser.ParseRowsSingle | lib/csv-parser.ts:29-44 | one line contributes its record exactly when it is a complete candidate |
| CsvParser.SkippedLineContributesNothing | lib/csv-parser.ts:29-35 | a blank line or one with fewer than three fields can be removed without changing the result |
| CsvParser.ExtraFieldsIgnored | lib/csv-parser.ts:35-40 | only the first three fields of a line matter |
| CsvParser.RowsProvenance | lib/csv-parser.ts:28-44 | every returned record comes from some data line's first three fields |
| CsvParser.HeaderIgnored | lib/csv-parser.ts:23-28 | the header line has no influence on the result |
| CsvParser.FetchAndParseCsv | lib/csv-parser.ts:7-20 | the fetch fails exactly when the request fails or the status is not ok; otherwise the result is the body parsed |
| Firestore.SanitizeString | lib/firestore.ts:75-85 | the result is at most 1500 units and free of C0 controls and DEL; an empty input stays empty; the result is the first 1500 units of the trimmed text with every control unit deleted |
| Firestore.NulPassSubsumed | lib/firestore.ts:82-83 | the NUL pass is subsumed by the control-character pass |
| Firestore.SanitizeStringNotIdempotent | lib/firestore.ts:80-84 | a second sanitisation can change an already sanitised string |
| Firestore.SanitizeStringKeepsC1 | lib/firestore.ts:83 | C1 control characters such as U+0085 pass the sanitiser |
| Firestore.SanitizeUrl | lib/firestore.ts:90-114 | the result is the sanitised text, that text with `https://` in front, or empty; a non-empty result parses as a URL; the sanitised text is kept whenever it parses, and a schemeless text that does not parse gets `https://` whenever that parses; in every other case the result is empty |
| Firestore.HttpsPrefixOnlyWhenNeeded | lib/firestore.ts:101-106 | `https://` is added only when the sanitised text did not parse and had no `http://` or `https://` prefix |
| Firestore.SanitizeUrlBounds | lib/firestore.ts:90-114 | a sanitised URL is at most 1508 units and free of control characters |
| Firestore.AddQuestion | lib/firestore.ts:48-70 | the write is refused exactly when a sanitised field is empty; a written record holds the sanitised fields |
| Firestore.WrittenRecordIsClean | lib/firestore.ts:51-63 | every written record is complete, bounded, control-free and has a parseable URL |
| Firestore.RandomQuestion | lib/firestore.ts:121-146 | an empty collection gives null; otherwise the pick is the document at the drawn index |
| Firestore.RandomQuestionReachesAll | lib/firestore.ts:140-141 | every document can be picked |
| RandomQuestionApi.IsValidQuestionShape | lib/random-question-api.ts:11-13 | a JSON value is a question exactly when it is an object whose `title`, `url` and `site` members are strings |
| RandomQuestionApi.ToQuestion | lib/random-question-api.ts:20 | the returned question carries the object's three string members |
| RandomQuestionApi.FetchSingleRandom | lib/random-question-api.ts:15-22 | a failed request or a non-ok status throws, and so does an ok reply whose body is not JSON; an ok reply with a JSON body yields its question when the value has the question shape and null otherwise |
| RandomQuestionApi.Settle | lib/random-question-api.ts:31 | `.catch(() => null)` turns every failure into null and keeps every delivered question |
| RandomQuestionApi.KeyCollision | lib/random-question-api.ts:42 | the `title|url` key can equate two different questions, so de-duplication can drop a distinct question |
| RandomQuestionApi.KeyDeterminesTitleAndUrl | lib/random-question-api.ts:42 | when neither title contains `|`, two questions share a key exactly when they share title and URL |
| RandomQuestionApi.FirstSeenKeys | lib/random-question-api.ts:38-46 | the kept questions cover exactly the keys of the delivered questions, each key once, and with the error count they never exceed the number of requests |
| RandomQuestionApi.FetchBatch | lib/random-question-api.ts:38-46 | the loop counts the failed requests and keeps the first question for each key, in arrival order |
| RandomQuestionApi.AllFailed | lib/random-question-api.ts:40-41 | when every request fails, no question is returned and every request counts as an error |
| RandomQuestionApi.SettledResults | lib/random-question-api.ts:29-35 | one settled result per request, in request order; a result is a question exactly when its request delivered one, and it is that question |
| RandomQuestionApi.ErrorsCountFailedReplies | lib/random-question-api.ts:29-44 | `errors` equals the number of requests that did not deliver a valid question |
| RandomQuestionApi.BatchExample | lib/random-question-api.ts:38-46 | a concrete batch: repeated questions are kept once and failures are counted |
| MigrateStandalone.FetchAndParseCsv | scripts/migrate-standalone.ts:63-79 | the script's fetch wrapper fails exactly when the request fails or the status is not ok, and otherwise parses the body |
| MigrateStandalone.ParseCsv | scripts/migrate-standalone.ts:81-121 | the script's parser returns nothing for a text of fewer than two lines, and only complete records |
| MigrateStandalone.SanitizeString | scripts/migrate-standalone.ts:148-159 | the script's sanitiser returns at most 1500 units, with no control character |
| MigrateStandalone.SanitizeUrl | scripts/migrate-standalone.ts:164-189 | a non-empty URL from the script's sanitiser parses |
| MigrateStandalone.AddQuestion | scripts/migrate-standalone.ts:194-217 | the script's write gate refuses exactly when a sanitised field is empty, and writes only complete records with a parseable URL |
| MigrateStandalone.ScanCsvLine | scripts/migrate-standalone.ts:123-143 | the script's loop returns exactly the library parser's fields |
| MigrateStandalone.InlineFilterAgrees | scripts/migrate-standalone.ts:95-118 | checking completeness before each push equals filtering afterwards |
| MigrateStandalone.ParseCsvAgrees | scripts/migrate-standalone.ts:81-121 | the script's `parseCSV`, including its early return for fewer than two lines, equals the library's on every text |
| MigrateStandalone.FetchAndParseCsvAgrees | scripts/migrate-standalone.ts:63-79 | the script's fetch wrapper answers every response as the library's does |
| MigrateStandalone.SanitizeStringAgrees | scripts/migrate-standalone.ts:148-159 | the script's extra vertical-tab and form-feed pass removes nothing, so both sanitisers agree |
| MigrateStandalone.SanitizeUrlAgrees | scripts/migrate-standalone.ts:164-189 | the script's URL sanitiser agrees with the library's for every URL parser |
| MigrateStandalone.AddQuestionAgrees | scripts/migrate-standalone.ts:194-217 | the script's write gate refuses and writes exactly as the library's |
| SubmitQuestionForm.QuestionError | components/submit-question-form.tsx:59-63 | the question is rejected exactly when it is blank or shorter than ten units before trimming: "required" when blank, "too short" otherwise |
| SubmitQuestionForm.UrlError | components/submit-question-form.tsx:65-73 | the URL is rejected exactly when it is blank or does not parse: "required" when blank, "invalid" otherwise |
| SubmitQuestionForm.EmailPatternMatchesRegex | components/submit-question-form.tsx:77 | the executable email test accepts exactly the strings `^[^\s@]+@[^\s@]+\.[^\s@]+$` matches |
| SubmitQuestionForm.EmailPatternSingleAt | components/submit-question-form.tsx:77 | an accepted address holds exactly one `@` |
| SubmitQuestionForm.EmailPatternNoWhitespace | components/submit-question-form.tsx:77 | an accepted address holds no whitespace |
| SubmitQuestionForm.EmailError | components/submit-question-form.tsx:75-79 | the email is rejected exactly when it is blank or does not match the pattern: "required" when blank, "invalid" otherwise |
| SubmitQuestionForm.SiteError | components/submit-question-form.tsx:81-83 | the site is rejected exactly when it is blank, always with "required" |
| SubmitQuestionForm.Validate | components/submit-question-form.tsx:56-87 | each field's error is present exactly when that field fails its check |
| SubmitQuestionForm.ValidateMessages | components/submit-question-form.tsx:56-83 | each error entry is that field's own message: "required" for a blank field, otherwise the too-short, invalid-URL or invalid-email message |
| SubmitQuestionForm.ValidIffFieldsAcceptable | components/submit-question-form.tsx:56-87 | `validateForm()` returns true exactly when all four fields are acceptable |
| SubmitQuestionForm.ErrorsAreLocal | components/submit-question-form.tsx:56-87 | a field's error depends on that field alone |
| SubmitQuestionForm.HandleInputChange | components/submit-question-form.tsx:147-153 | the edited field takes the new value and loses its error; every other field, error and flag is unchanged |
| SubmitQuestionForm.RateLimitBoxComesFromDenial | components/submit-question-form.tsx:46-54 | starting without a rate-limit notice, the form shows one only after some check returned a denial, and then with the hook's reason and wait |
| SubmitQuestionForm.SubmitAnother | components/submit-question-form.tsx:171-175 | "Submit Another Question" returns to an empty form that is not submitted; errors, messages, the rate-limit notice and the in-progress flag are unchanged |
| SubmitQuestionForm.Caught | components/submit-question-form.tsx:130-141 | a caught error never marks the question submitted; an error whose code is the rate-limit code shows its message and wait and keeps the previous error text; any other error shows the generic message and keeps the previous rate-limit notice |
| SubmitQuestionForm.Attempt | components/submit-question-form.tsx:98-129 | a denial stops before the write; an allowed, accepted and completed write stores the sanitised record and marks the form submitted, and only such a write does so with Firebase enabled; every throw (failed check, rejected record, failed write) goes to the `catch` handling, which stores nothing and leaves the submitted flag as it was; a submission that goes through changes only the submitted flag |
| SubmitQuestionForm.HandleSubmit | components/submit-question-form.tsx:89-145 | an invalid form triggers no check and no write; a valid one always ends not submitting, and one that goes through leaves no error message and no rate-limit notice from before; a rate-limit check that throws is handled by the `catch` block on the cleared state; a denial is shown and nothing is written; a valid, allowed, accepted and completed write is stored and reported submitted, and with the simulated backend a valid form is reported submitted; a stored record is the sanitised payload of a valid form that passed the rate limit; a failed write stores nothing and leaves the submitted flag as it was |
| SubmitQuestionForm.EmailNeverStored | components/submit-question-form.tsx:115-121 | the email address has no influence on what is stored |
| UseRateLimit.Settle | hooks/use-rate-limit.ts:21-36 | a settled check copies the decision verbatim; a thrown error fails open |
| UseRateLimit.BeginRecheck | hooks/use-rate-limit.ts:51 | a recheck sets the loading flag and keeps the previous decision |
| UseRateLimit.DenialComesFromCheck | hooks/use-rate-limit.ts:14-68 | the hook reports "not allowed" only after some check returned a denial |
| UseRateLimit.LastSettledWins | hooks/use-rate-limit.ts:53-67 | after the latest check settles, the status is that check's result and no longer loading |
| UseQuestions.OutcomeOf | hooks/use-questions.ts:39 | the load sees the parsed feed exactly when the fetch succeeded |
| UseQuestions.LoadQuestions | hooks/use-questions.ts:34-54 | a non-empty feed replaces the pool; an empty feed or a failure restores the fallbacks, with an error only for a failure; loading ends either way |
| UseQuestions.PoolNeverEmpty | hooks/use-questions.ts:29-57 | the question pool is never empty |
| UseQuestions.GetRandomQuestion | hooks/use-questions.ts:59-62 | the pick is the question at the drawn index; the fallback branch is taken only for an empty pool |
| UseQuestions.EveryQuestionReachable | hooks/use-questions.ts:61 | every question in the pool can be drawn |
| UseQuestions.TotalQuestions | hooks/use-questions.ts:69 | the count is the number of questions in the pool, so positive for every valid pool |

## Left out

- Network, Firestore and timer I/O: `fetch`, `response.text()`, `response.json()`, `addDoc`, `getDocs`, `setTimeout`, `AbortController`. Each call's outcome is an input. The batch's 8-second abort therefore shows up only as failed replies.
- Concurrency and React scheduling. `Promise.all` is modelled as the list of settled results in request order. Hook updates are applied in the order they settle. Interleavings of overlapping loads or rechecks are not modelled.
- `checkRateLimit` and its history evaluator, hashing and storage are not part of this model; their result is an input.
- `createdAt: new Date()` on stored records is left out, because it is a clock reading.
- The `typeof value !== 'string'` guards and the `values[i]?.` / `|| ""` fallbacks are left out: every value in the model is a string, and the guarded cases cannot arise.
- The `!API_URL` check in `fetchSingleRandom` is left out. `API_URL` is a non-empty constant, so the branch is dead.
- JSON members other than `title`, `url` and `site` are left out. They are carried along in the source but never read.
- The `desired` batch size and `BATCH_SIZE` are left out. The batch is modelled from its list of replies, whose length is the number of requests.
- `Js.FloorRandomIndex`: double-precision rounding of `Math.random() * n` is not modelled. The exact rational product is floored instead.
- Whitespace follows one fixed Unicode version of the space-separator category.
- `Js.Lit` maps a character outside the Basic Multilingual Plane to U+FFFD instead of a surrogate pair. No literal in the model has one.
- `fetchQuestionsFromFirestore`, `getPaginatedQuestions` and `getQuestionsCount` are left out as storage I/O. They read documents with the `|| ''` mapping; `getPaginatedQuestions` builds an ordered, limited query and returns the last document as the next page's cursor, and `getQuestionsCount` falls back to a count of 0 when the read fails.
- The migration driver (`migrateDataToFirebase`, `validateFirebaseConfig`) and all console logging are left out. They are I/O orchestration.
- The rendered markup of the form and the hooks is left out, as is every other component.
- For the invalid-data error of `addQuestionToFirestore`, the message's JSON rendering of the record is not modelled. The form never shows it, because the error has no `code`.

=== FILE: csv_parser.dfy ===
/** The delimited-feed parser of lib/csv-parser.ts: a quote-toggling line
    scanner, a row filter over the lines after the header, and the fetch
    wrapper reduced to its response. */
module CsvParser {

  import opened Results
  import opened Js

  /** A question record: its title, the URL it was asked at and the site name. */
  datatype Question = Question(title: JsString, url: JsString, site: JsString)

  predicate IsQuote(u: CodeUnit) {
    u == DoubleQuote
  }

  /** Number of commas met while the quote toggle is off, scanning `s` from a
      state where the toggle is `inQuotes`. */
  function SeparatorCount(s: JsString, inQuotes: bool): nat {
    if s == [] then 0
    else if s[0] == DoubleQuote then SeparatorCount(s[1..], !inQuotes)
    else if s[0] == Comma && !inQuotes then 1 + SeparatorCount(s[1..], inQuotes)
    else SeparatorCount(s[1..], inQuotes)
  }

  /** The fields of `s` scanned from a state where the quote toggle is
      `inQuotes`; the first field returned is the one still being built.
      A `"` only flips the toggle, a `,` with the toggle off closes a field,
      and every other unit joins the current field. */
  function Scan(s: JsString, inQuotes: bool): (fields: seq<JsString>)
    ensures |fields| == 1 + SeparatorCount(s, inQuotes)
    ensures forall i :: 0 <= i < |fields| ==> DoubleQuote !in fields[i]
  {
    if s == [] then [[]]
    else if s[0] == DoubleQuote then Scan(s[1..], !inQuotes)
    else if s[0] == Comma && !inQuotes then [[]] + Scan(s[1..], inQuotes)
    else
      var rest := Scan(s[1..], inQuotes);
      [[s[0]] + rest[0]] + rest[1..]
  }

  /** `parseCSVLine(line)`: at least one field, one more than the commas met
      outside quotes, and no field holds a `"`. */
  function ParseLine(line: JsString): (fields: seq<JsString>)
    ensures |fields| >= 1
    ensures |fields| == 1 + SeparatorCount(line, false)
    ensures forall i :: 0 <= i < |fields| ==> DoubleQuote !in fields[i]
  {
    Scan(line, false)
  }

  lemma {:induction false} JoinScan(s: JsString, inQuotes: bool)
    ensures Join(Scan(s, inQuotes), [Comma]) == DeleteAll(s, IsQuote)
  {
    if s == [] {
    } else if s[0] == DoubleQuote {
      assert DeleteAll(s, IsQuote) == DeleteAll(s[1..], IsQuote);
      JoinScan(s[1..], !inQuotes);
    } else if s[0] == Comma && !inQuotes {
      var rest := Scan(s[1..], inQuotes);
      JoinScan(s[1..], inQuotes);
      assert DeleteAll(s, IsQuote) == [Comma] + DeleteAll(s[1..], IsQuote);
      assert ([[]] + rest)[1..] == rest;
      assert Join([[]] + rest, [Comma]) == [Comma] + Join(rest, [Comma]);
    } else {
      var rest := Scan(s[1..], inQuotes);
      JoinScan(s[1..], inQuotes);
      assert DeleteAll(s, IsQuote) == [s[0]] + DeleteAll(s[1..], IsQuote);
      JoinExtendFirst([s[0]], rest[0], rest[1..], [Comma]);
      assert [rest[0]] + rest[1..] == rest;
    }
  }

  /** Joining the fields of a line with `,` gives back the line with every
      `"` removed: the scanner neither reorders nor loses anything else. */
  lemma ParseLineJoin(line: JsString)
    ensures Join(ParseLine(line), [Comma]) == DeleteAll(line, IsQuote)
  {
    JoinScan(line, false);
  }

  /** `value?.trim().replace(/"/g, "") || ""` for one field. */
  function CleanField(f: JsString): JsString {
    DeleteAll(Trim(f), IsQuote)
  }

  /** A field the scanner produced holds no `"`, so removing quotes after
      trimming it changes nothing. */
  lemma CleanFieldOfScannedField(f: JsString)
    requires DoubleQuote !in f
    ensures CleanField(f) == Trim(f)
  {
    DeleteAllAbsent(Trim(f), IsQuote);
  }

  /** The record one data line pushes onto `questions` before the final
      filter: nothing for a blank line or a line of fewer than three fields,
      otherwise the first three cleaned fields. */
  function RowCandidate(line: JsString): (r: Option<Question>)
    ensures r.Some? <==> !IsBlank(line) && |ParseLine(line)| >= 3
    ensures r.Some? ==> DoubleQuote !in r.value.title && DoubleQuote !in r.value.url && DoubleQuote !in r.value.site
  {
    if IsBlank(line) then None
    else
      var values := ParseLine(line);
      if |values| >= 3 then
        Some(Question(CleanField(values[0]), CleanField(values[1]), CleanField(values[2])))
      else None
  }

  /** A record holds the first three fields of its line, trimmed: the quotes
      were already dropped by the scanner. */
  lemma RowCandidateFields(line: JsString)
    requires !IsBlank(line) && |ParseLine(line)| >= 3
    ensures var values := ParseLine(line);
      RowCandidate(line) == Some(Question(Trim(values[0]), Trim(values[1]), Trim(values[2])))
  {
    var values := ParseLine(line);
    CleanFieldOfScannedField(values[0]);
    CleanFieldOfScannedField(values[1]);
    CleanFieldOfScannedField(values[2]);
  }

  /** `q.title && q.url && q.site`: every field non-empty. */
  predicate IsComplete(q: Question) {
    q.title != [] && q.url != [] && q.site != []
  }

  /** The `questions` array the loop over the data lines builds. */
  function Candidates(rows: seq<JsString>): (qs: seq<Question>)
    ensures |qs| <= |rows|
  {
    if rows == [] then []
    else
      match RowCandidate(rows[0])
      case Some(q) => [q] + Candidates(rows[1..])
      case None => Candidates(rows[1..])
  }

  /** `questions.filter((q) => q.title && q.url && q.site)`. */
  function KeepComplete(qs: seq<Question>): (r: seq<Question>)
    ensures |r| <= |qs|
    ensures forall i :: 0 <= i < |r| ==> IsComplete(r[i])
  {
    if qs == [] then []
    else if IsComplete(qs[0]) then [qs[0]] + KeepComplete(qs[1..])
    else KeepComplete(qs[1..])
  }

  /** The questions the data lines `rows` yield. */
  function ParseRows(rows: seq<JsString>): (qs: seq<Question>)
    ensures |qs| <= |rows|
    ensures forall i :: 0 <= i < |qs| ==> IsComplete(qs[i])
  {
    KeepComplete(Candidates(rows))
  }

  /** `csvText.trim().split("\n")`. */
  function Lines(text: JsString): (lines: seq<JsString>)
    ensures |lines| >= 1
  {
    Split(Trim(text), LineFeed)
  }

  /** `parseCSV(csvText)`: the first line is the header and is skipped; every
      question returned is complete and free of `"`, and there are fewer
      questions than lines. */
  function ParseCsv(text: JsString): (qs: seq<Question>)
    ensures |qs| <= |Lines(text)| - 1
    ensures forall i :: 0 <= i < |qs| ==> IsComplete(qs[i])
    ensures forall i :: 0 <= i < |qs| ==>
      DoubleQuote !in qs[i].title && DoubleQuote !in qs[i].url && DoubleQuote !in qs[i].site
  {
    var lines := Lines(text);
    var qs := ParseRows(lines[1..]);
    RowsQuoteFree(lines[1..]);
    assert forall i :: 0 <= i < |qs| ==> qs[i] in qs;
    qs
  }

  lemma RowsQuoteFree(rows: seq<JsString>)
    ensures forall q :: q in ParseRows(rows) ==>
      DoubleQuote !in q.title && DoubleQuote !in q.url && DoubleQuote !in q.site
  {
    RowsProvenance(rows);
    forall q | q in ParseRows(rows)
      ensures DoubleQuote !in q.title && DoubleQuote !in q.url && DoubleQuote !in q.site
    {
      var k :| 0 <= k < |rows| && RowCandidate(rows[k]) == Some(q);
    }
  }

  lemma {:induction false} CandidatesAppend(a: seq<JsString>, b: seq<JsString>)
    ensures Candidates(a + b) == Candidates(a) + Candidates(b)
  {
    if a == [] {
      assert a + b == b;
    } else {
      assert (a + b)[0] == a[0];
      assert (a + b)[1..] == a[1..] + b;
      CandidatesAppend(a[1..], b);
    }
  }

  lemma {:induction false} KeepCompleteAppend(a: seq<Question>, b: seq<Question>)
    ensures KeepComplete(a + b) == KeepComplete(a) + KeepComplete(b)
  {
    if a == [] {
      assert a + b == b;
    } else {
      assert (a + b)[0] == a[0];
      assert (a + b)[1..] == a[1..] + b;
      KeepCompleteAppend(a[1..], b);
    }
  }

  /** Lines are parsed independently and their questions come out in line
      order: the rows of `a + b` yield those of `a` followed by those of `b`. */
  lemma ParseRowsAppend(a: seq<JsString>, b: seq<JsString>)
    ensures ParseRows(a + b) == ParseRows(a) + ParseRows(b)
  {
    CandidatesAppend(a, b);
    KeepCompleteAppend(Candidates(a), Candidates(b));
  }

  /** One line yields its record exactly when it is non-blank, has at least
      three fields and all three cleaned fields are non-empty. */
  lemma ParseRowsSingle(line: JsString)
    ensures ParseRows([line]) ==
      if !IsBlank(line) && |ParseLine(line)| >= 3 && IsComplete(RowCandidate(line).value)
      then [RowCandidate(line).value] else []
  {
    assert [line][1..] == [];
  }

  /** A blank line, or one with fewer than three fields, contributes nothing
      wherever it occurs. */
  lemma SkippedLineContributesNothing(before: seq<JsString>, line: JsString, after: seq<JsString>)
    requires IsBlank(line) || |ParseLine(line)| < 3
    ensures ParseRows(before + [line] + after) == ParseRows(before + after)
  {
    ParseRowsAppend(before + [line], after);
    ParseRowsAppend(before, [line]);
    ParseRowsSingle(line);
    ParseRowsAppend(before, after);
  }

  /** Only the first three fields of a line matter. */
  lemma ExtraFieldsIgnored(l1: JsString, l2: JsString)
    requires !IsBlank(l1) && !IsBlank(l2)
    requires |ParseLine(l1)| >= 3 && |ParseLine(l2)| >= 3
    requires ParseLine(l1)[..3] == ParseLine(l2)[..3]
    ensures RowCandidate(l1) == RowCandidate(l2)
  {
    assert ParseLine(l1)[0] == ParseLine(l1)[..3][0];
    assert ParseLine(l1)[1] == ParseLine(l1)[..3][1];
    assert ParseLine(l1)[2] == ParseLine(l1)[..3][2];
  }

  lemma LineYields(line: JsString, q: Question)
    requires q in ParseRows([line])
    ensures RowCandidate(line) == Some(q)
  {
    ParseRowsSingle(line);
  }

  /** Every question comes from one data line, as that line's record. */
  lemma {:induction false} RowsProvenance(rows: seq<JsString>)
    ensures forall q :: q in ParseRows(rows) ==>
      exists k :: 0 <= k < |rows| && RowCandidate(rows[k]) == Some(q)
  {
    if rows != [] {
      RowsProvenance(rows[1..]);
      ParseRowsAppend([rows[0]], rows[1..]);
      assert [rows[0]] + rows[1..] == rows;
      forall q | q in ParseRows(rows)
        ensures exists k :: 0 <= k < |rows| && RowCandidate(rows[k]) == Some(q)
      {
        ProvenanceStep(rows, q);
      }
    }
  }

  /** A question of `rows` is the first line's record or comes from a later line. */
  lemma ProvenanceStep(rows: seq<JsString>, q: Question)
    requires rows != []
    requires q in ParseRows([rows[0]]) + ParseRows(rows[1..])
    requires forall q :: q in ParseRows(rows[1..]) ==>
      exists k :: 0 <= k < |rows[1..]| && RowCandidate(rows[1..][k]) == Some(q)
    ensures exists k :: 0 <= k < |rows| && RowCandidate(rows[k]) == Some(q)
  {
    if q in ParseRows([rows[0]]) {
      LineYields(rows[0], q);
    } else {
      var k :| 0 <= k < |rows[1..]| && RowCandidate(rows[1..][k]) == Some(q);
      assert rows[1..][k] == rows[k + 1];
    }
  }

  /** The first line (after trimming the text) is the header: only the lines
      after it decide the result. */
  lemma HeaderIgnored(t1: JsString, t2: JsString)
    requires Lines(t1)[1..] == Lines(t2)[1..]
    ensures ParseCsv(t1) == ParseCsv(t2)
  {
  }

  /** The response of `fetch(url)`: a transport failure, or a status flag
      with the body text. */
  datatype Response = TransportFailure | Response(ok: bool, body: JsString)

  datatype FetchError = FetchFailed

  /** `fetchAndParseCSV(url)` given what `fetch` produced: a failed fetch or a
      non-ok status is an error, otherwise the parsed body, possibly empty. */
  function FetchAndParseCsv(response: Response): (r: Result<seq<Question>, FetchError>)
    ensures r.Err? <==> response.TransportFailure? || !response.ok
    ensures r.Ok? ==> r.value == ParseCsv(response.body)
  {
    match response
    case TransportFailure => Err(FetchFailed)
    case Response(ok, body) => if !ok then Err(FetchFailed) else Ok(ParseCsv(body))
  }
}

=== FILE: firestore.dfy ===
/** The submission sanitiser and validator of lib/firestore.ts, and its
    random pick over the stored collection. The Firestore reads and writes
    themselves are inputs and outputs of these functions. */
module Firestore {

  import opened Results
  import opened Js
  import opened CsvParser

  /** The length `substring(0, 1500)` keeps. */
  const MaxLength: nat := 1500

  predicate IsNul(u: CodeUnit) {
    u == 0x00
  }

  /** The class `[\x00-\x1F\x7F]`: C0 controls and DEL. */
  predicate IsControl(u: CodeUnit) {
    u <= 0x1F || u == 0x7F
  }

  /** "http://" */
  const HttpPrefix: JsString := [0x68, 0x74, 0x74, 0x70, 0x3A, 0x2F, 0x2F]

  /** "https://" */
  const HttpsPrefix: JsString := [0x68, 0x74, 0x74, 0x70, 0x73, 0x3A, 0x2F, 0x2F]

  /** `sanitizeString(value)`: the empty string stays empty; otherwise trim,
      delete NUL, delete the C0 controls and DEL, keep at most 1500 units.
      The result is a prefix of the trimmed value with the controls deleted,
      so nothing is inserted. */
  function SanitizeString(value: JsString): (r: JsString)
    ensures |r| <= MaxLength
    ensures forall i :: 0 <= i < |r| ==> !IsControl(r[i])
    ensures value == [] ==> r == []
    ensures var cleaned := DeleteAll(Trim(value), IsControl);
      |r| <= |cleaned| && r == cleaned[..|r|] && (|cleaned| <= MaxLength ==> r == cleaned)
    ensures r == Take(DeleteAll(Trim(value), IsControl), MaxLength)
  {
    if value == [] then []
    else
      NulPassSubsumed(Trim(value));
      Take(DeleteAll(DeleteAll(Trim(value), IsNul), IsControl), MaxLength)
  }

  /** The NUL pass is subsumed by the control-character pass that follows it. */
  lemma {:induction false} NulPassSubsumed(s: JsString)
    ensures DeleteAll(DeleteAll(s, IsNul), IsControl) == DeleteAll(s, IsControl)
  {
    if s != [] {
      NulPassSubsumed(s[1..]);
    }
  }

  /** `sanitizeString` is not idempotent: trimming runs before the controls
      are deleted, so a control unit in front of a space shields the space
      from the first pass and not from the second. */
  lemma SanitizeStringNotIdempotent()
    ensures var v: JsString := [0x01, 0x20, 0x61];
      SanitizeString(v) == [0x20, 0x61] && SanitizeString(SanitizeString(v)) == [0x61]
  {
    var v: JsString := [0x01, 0x20, 0x61];
    assert TrimStart(v) == v;
    assert TrimEnd(v) == v by {
      assert !IsWhitespace(v[2]);
    }
    assert DeleteAll(v, IsNul) == v by {
      DeleteAllAbsent(v, IsNul);
    }
    assert DeleteAll(v, IsControl) == [0x20, 0x61] by {
      assert DeleteAll(v[1..], IsControl) == v[1..] by {
        DeleteAllAbsent(v[1..], IsControl);
      }
    }
    var w: JsString := [0x20, 0x61];
    assert TrimStart(w) == [0x61] by {
      assert w[1..] == [0x61];
    }
    assert Trim(w) == [0x61];
    assert DeleteAll([0x61], IsNul) == [0x61];
    assert DeleteAll([0x61], IsControl) == [0x61];
  }

  /** C1 controls (U+0080 to U+009F) are not deleted: NEL survives. */
  lemma SanitizeStringKeepsC1()
    ensures SanitizeString([0x85]) == [0x85]
  {
    var v: JsString := [0x85];
    assert Trim(v) == v;
    assert DeleteAll(v, IsNul) == v;
    assert DeleteAll(v, IsControl) == v;
  }

  /** `s.startsWith('http://') || s.startsWith('https://')`. */
  predicate HasHttpScheme(s: JsString) {
    StartsWith(s, HttpPrefix) || StartsWith(s, HttpsPrefix)
  }

  /** `sanitizeUrl(value)`: the sanitised string when the URL parser accepts
      it; else, when it lacks an `http://` or `https://` scheme, the
      sanitised string behind `https://` if the parser accepts that; else
      the empty string. */
  function SanitizeUrl(value: JsString, parses: UrlParser): (r: JsString)
    ensures var s := SanitizeString(value);
      r == s || r == HttpsPrefix + s || r == []
    ensures r != [] ==> parses(r)
    ensures value == [] ==> r == []
    // a non-empty value keeps its sanitised form whenever that parses, and
    // otherwise gets `https://` whenever that helps a schemeless value
    ensures value != [] && parses(SanitizeString(value)) ==> r == SanitizeString(value)
    ensures var s := SanitizeString(value);
      value != [] && !parses(s) && !HasHttpScheme(s) && parses(HttpsPrefix + s) ==> r == HttpsPrefix + s
    // otherwise the result is empty
    ensures var s := SanitizeString(value);
      !parses(s) && (HasHttpScheme(s) || !parses(HttpsPrefix + s)) ==> r == []
  {
    if value == [] then []
    else
      var s := SanitizeString(value);
      if parses(s) then s
      else if !HasHttpScheme(s) then
        if parses(HttpsPrefix + s) then HttpsPrefix + s else []
      else []
  }

  /** The `https://` prefix is added only to a sanitised string that has
      neither scheme and that the parser rejects as it stands. */
  lemma HttpsPrefixOnlyWhenNeeded(value: JsString, parses: UrlParser)
    requires SanitizeUrl(value, parses) != SanitizeString(value)
    requires SanitizeUrl(value, parses) != []
    ensures var s := SanitizeString(value);
      && SanitizeUrl(value, parses) == HttpsPrefix + s
      && !parses(s) && !HasHttpScheme(s)
  {
  }

  /** A sanitised URL carries no control unit and is at most eight units
      longer than the 1500-unit bound, the length of `https://`. */
  lemma SanitizeUrlBounds(value: JsString, parses: UrlParser)
    ensures |SanitizeUrl(value, parses)| <= MaxLength + 8
    ensures forall i :: 0 <= i < |SanitizeUrl(value, parses)| ==> !IsControl(SanitizeUrl(value, parses)[i])
  {
    var s := SanitizeString(value);
    var r := SanitizeUrl(value, parses);
    if r == HttpsPrefix + s {
      PrefixedStaysClean(s);
    }
  }

  /** `https://` in front of a sanitised string adds eight units and no control unit. */
  lemma PrefixedStaysClean(s: JsString)
    requires |s| <= MaxLength
    requires forall i :: 0 <= i < |s| ==> !IsControl(s[i])
    ensures |HttpsPrefix + s| <= MaxLength + 8
    ensures forall i :: 0 <= i < |HttpsPrefix + s| ==> !IsControl((HttpsPrefix + s)[i])
  {
    var h := HttpsPrefix;
    forall i | 0 <= i < |h + s| ensures !IsControl((h + s)[i]) {
      if i >= |h| {
        assert (h + s)[i] == s[i - |h|];
      }
    }
  }

  /** What `addQuestionToFirestore` does with a question: write the sanitised
      record, or throw before writing. */
  datatype AddResult = Written(doc: Question) | Rejected

  /** `addQuestionToFirestore(question)`: it writes nothing and fails exactly
      when a sanitised field is empty; otherwise the stored title and site are
      the sanitised inputs and the stored URL the sanitised URL. */
  function AddQuestion(question: Question, parses: UrlParser): (r: AddResult)
    ensures r.Rejected? <==>
      SanitizeString(question.title) == [] || SanitizeUrl(question.url, parses) == [] ||
      SanitizeString(question.site) == []
    ensures r.Written? ==>
      && r.doc.title == SanitizeString(question.title)
      && r.doc.url == SanitizeUrl(question.url, parses)
      && r.doc.site == SanitizeString(question.site)
  {
    var title := SanitizeString(question.title);
    var url := SanitizeUrl(question.url, parses);
    var site := SanitizeString(question.site);
    if title == [] || url == [] || site == [] then Rejected
    else Written(Question(title, url, site))
  }

  /** Every written record is complete, bounded and free of control units,
      and its URL is accepted by the parser. */
  lemma WrittenRecordIsClean(question: Question, parses: UrlParser)
    requires AddQuestion(question, parses).Written?
    ensures var doc := AddQuestion(question, parses).doc;
      && IsComplete(doc)
      && parses(doc.url)
      && |doc.title| <= MaxLength && |doc.site| <= MaxLength && |doc.url| <= MaxLength + 8
      && (forall i :: 0 <= i < |doc.title| ==> !IsControl(doc.title[i]))
      && (forall i :: 0 <= i < |doc.url| ==> !IsControl(doc.url[i]))
      && (forall i :: 0 <= i < |doc.site| ==> !IsControl(doc.site[i]))
  {
    SanitizeUrlBounds(question.url, parses);
  }

  /** `getRandomQuestionFromFirestore()` over the records the collection
      read returned, with `Math.random()` given as `num / den`: nothing for
      an empty collection, otherwise the record at the drawn index. */
  function RandomQuestion(docs: seq<Question>, num: nat, den: nat): (r: Option<Question>)
    requires num < den
    ensures r.None? <==> |docs| == 0
    ensures r.Some? ==>
      FloorRandomIndex(|docs|, num, den) < |docs| && r.value == docs[FloorRandomIndex(|docs|, num, den)]
  {
    if |docs| == 0 then None else Some(docs[FloorRandomIndex(|docs|, num, den)])
  }

  /** Every stored record can be the one picked. */
  lemma RandomQuestionReachesAll(docs: seq<Question>, k: nat)
    requires k < |docs|
    ensures RandomQuestion(docs, k, |docs|) == Some(docs[k])
  {
    FloorRandomIndexReaches(|docs|, k);
  }

  /** The result of `checkRateLimit()`, which is not part of this model: the
      decision and, on a denial, its reason and the minutes to wait. */
  datatype RateLimitCheck = RateLimitCheck(allowed: bool, reason: Option<JsString>, retryAfter: Option<int>)
}

=== FILE: js.dfy ===
/** The JavaScript string primitives the application relies on: strings as
    sequences of UTF-16 code units, `trim`, global `replace` with an empty
    replacement, `substring(0, n)`, `startsWith`, `split` and `join`. */
module Js {

  import opened Results

  /** One UTF-16 code unit, the element JavaScript strings are made of. */
  newtype CodeUnit = x: int | 0 <= x < 0x1_0000

  type JsString = seq<CodeUnit>

  /** The URL parser behind `new URL(s)`: true when the constructor does not throw. */
  type UrlParser = JsString -> bool

  /** A thrown JavaScript error: its optional `code`, its `message` and the
      optional `retryAfter` some callers attach. */
  datatype JsError = JsError(code: Option<JsString>, message: JsString, retryAfter: Option<int>)

  const LineFeed: CodeUnit := 0x0A
  const DoubleQuote: CodeUnit := 0x22
  const Comma: CodeUnit := 0x2C
  const Dot: CodeUnit := 0x2E
  const At: CodeUnit := 0x40
  const Bar: CodeUnit := 0x7C

  /** A Dafny string literal as the code units JavaScript stores for it. Every
      literal in this model is ASCII; a character outside the Basic
      Multilingual Plane, which would need a surrogate pair, becomes U+FFFD. */
  function Lit(s: string): (r: JsString)
    ensures |r| == |s|
    ensures forall i :: 0 <= i < |s| && s[i] as int < 0x1_0000 ==> r[i] as int == s[i] as int
  {
    seq(|s|, i requires 0 <= i < |s| => if s[i] as int < 0x1_0000 then s[i] as int as CodeUnit else 0xFFFD)
  }

  /** The ECMAScript WhiteSpace and LineTerminator code points: what `trim`
      removes and what the regular-expression class `\s` matches. */
  predicate IsWhitespace(u: CodeUnit) {
    || 0x09 <= u <= 0x0D
    || u == 0x20 || u == 0xA0 || u == 0x1680
    || 0x2000 <= u <= 0x200A
    || u == 0x2028 || u == 0x2029 || u == 0x202F || u == 0x205F
    || u == 0x3000 || u == 0xFEFF
  }

  /** `s` with its leading whitespace removed. */
  function TrimStart(s: JsString): (r: JsString)
    ensures |r| <= |s| && r == s[|s| - |r|..]
    ensures forall i :: 0 <= i < |s| - |r| ==> IsWhitespace(s[i])
    ensures r == [] || !IsWhitespace(r[0])
  {
    if s != [] && IsWhitespace(s[0]) then
      var r := TrimStart(s[1..]);
      SuffixOfSuffix(s, 1, |s| - 1 - |r|);
      r
    else s
  }

  /** `s` with its trailing whitespace removed. */
  function TrimEnd(s: JsString): (r: JsString)
    ensures |r| <= |s| && r == s[..|r|]
    ensures forall i :: |r| <= i < |s| ==> IsWhitespace(s[i])
    ensures r == [] || !IsWhitespace(r[|r| - 1])
  {
    if s != [] && IsWhitespace(s[|s| - 1]) then
      var r := TrimEnd(s[..|s| - 1]);
      PrefixOfPrefix(s, |s| - 1, |r|);
      r
    else s
  }

  /** `s.trim()`: a slice of `s` that is empty exactly when `s` is all
      whitespace, and otherwise starts and ends with a non-whitespace unit. */
  function Trim(s: JsString): (r: JsString)
    ensures |r| <= |s|
    ensures forall u :: u in r ==> u in s
    ensures r == [] <==> forall i :: 0 <= i < |s| ==> IsWhitespace(s[i])
    ensures r != [] ==> !IsWhitespace(r[0]) && !IsWhitespace(r[|r| - 1])
  {
    var t := TrimStart(s);
    TrimEndAllWhitespace(t);
    TrimEnd(t)
  }

  /** Every unit of `s` is whitespace. */
  predicate AllWhitespace(s: JsString) {
    forall i :: 0 <= i < |s| ==> IsWhitespace(s[i])
  }

  /** `s.trim()` is the slice of `s` between its leading and its trailing
      whitespace: `s` is whitespace, then the trimmed text, then whitespace. */
  lemma TrimIsSlice(s: JsString)
    ensures var a := |s| - |TrimStart(s)|;
      && a + |Trim(s)| <= |s|
      && s == s[..a] + Trim(s) + s[a + |Trim(s)|..]
      && AllWhitespace(s[..a]) && AllWhitespace(s[a + |Trim(s)|..])
  {
    var t := TrimStart(s);
    var a := |s| - |t|;
    TrimStartSplit(s);
    TrimEndSplit(t);
    TrimUnfold(s);
    var r := Trim(s);
    SuffixOfSuffix(s, a, |r|);
    Regroup(s, s[..a], t, r, t[|r|..]);
  }

  lemma SuffixOfSuffix(s: JsString, a: nat, k: nat)
    requires a + k <= |s|
    ensures s[a..][k..] == s[a + k..]
  {
  }

  lemma PrefixOfPrefix(s: JsString, a: nat, k: nat)
    requires k <= a <= |s|
    ensures s[..a][..k] == s[..k]
  {
  }

  lemma Regroup(s: JsString, lead: JsString, t: JsString, r: JsString, trail: JsString)
    requires s == lead + t && t == r + trail
    ensures s == lead + r + trail
  {
  }

  lemma TrimUnfold(s: JsString)
    ensures Trim(s) == TrimEnd(TrimStart(s))
  {
  }

  /** `s` is its leading whitespace followed by `TrimStart(s)`. */
  lemma TrimStartSplit(s: JsString)
    ensures var a := |s| - |TrimStart(s)|;
      s == s[..a] + TrimStart(s) && AllWhitespace(s[..a])
  {
    var a := |s| - |TrimStart(s)|;
    SplitAt(s, a);
    WhitespaceSlice(s, 0, a);
    assert s[0..a] == s[..a];
  }

  /** `t` is `TrimEnd(t)` followed by its trailing whitespace. */
  lemma TrimEndSplit(t: JsString)
    ensures var r := TrimEnd(t);
      t == r + t[|r|..] && AllWhitespace(t[|r|..])
  {
    var r := TrimEnd(t);
    SplitAt(t, |r|);
    WhitespaceSlice(t, |r|, |t|);
    assert t[|r|..|t|] == t[|r|..];
  }

  lemma SplitAt(s: JsString, a: nat)
    requires a <= |s|
    ensures s == s[..a] + s[a..]
  {
  }

  /** A stretch of whitespace units is an all-whitespace string. */
  lemma WhitespaceSlice(s: JsString, lo: nat, hi: nat)
    requires lo <= hi <= |s|
    requires forall i :: lo <= i < hi ==> IsWhitespace(s[i])
    ensures AllWhitespace(s[lo..hi])
  {
    assert forall i :: 0 <= i < hi - lo ==> s[lo..hi][i] == s[lo + i];
  }

  lemma TrimEndAllWhitespace(t: JsString)
    ensures TrimEnd(t) == [] ==> forall i :: 0 <= i < |t| ==> IsWhitespace(t[i])
  {
  }

  /** `!s.trim()`: the string is empty or all whitespace. */
  predicate IsBlank(s: JsString) {
    Trim(s) == []
  }

  /** `s.replace(/[…]/g, "")` for a character class `matches`: every matching
      unit is deleted and the others keep their order. */
  function DeleteAll(s: JsString, matches: CodeUnit -> bool): (r: JsString)
    ensures |r| <= |s|
    ensures forall i :: 0 <= i < |r| ==> !matches(r[i])
  {
    if s == [] then []
    else if matches(s[0]) then DeleteAll(s[1..], matches)
      else [s[0]] + DeleteAll(s[1..], matches)
  }

  /** Deleting keeps every unit outside the class as often as it occurs. */
  lemma {:induction false} DeleteAllCounts(s: JsString, matches: CodeUnit -> bool, u: CodeUnit)
    ensures multiset(DeleteAll(s, matches))[u] == if matches(u) then 0 else multiset(s)[u]
  {
    if s != [] {
      assert s == [s[0]] + s[1..];
      DeleteAllCounts(s[1..], matches, u);
    }
  }

  lemma {:induction false} DeleteAllAppend(a: JsString, b: JsString, matches: CodeUnit -> bool)
    ensures DeleteAll(a + b, matches) == DeleteAll(a, matches) + DeleteAll(b, matches)
  {
    if a != [] {
      assert (a + b)[0] == a[0];
      assert (a + b)[1..] == a[1..] + b;
      DeleteAllAppend(a[1..], b, matches);
    } else {
      assert a + b == b;
    }
  }

  /** Deleting a class that does not occur changes nothing. */
  lemma {:induction false} DeleteAllAbsent(s: JsString, matches: CodeUnit -> bool)
    requires forall i :: 0 <= i < |s| ==> !matches(s[i])
    ensures DeleteAll(s, matches) == s
  {
    if s != [] {
      DeleteAllAbsent(s[1..], matches);
    }
  }

  /** `s.substring(0, n)`: the first `n` units, or all of `s` when it is shorter. */
  function Take(s: JsString, n: nat): (r: JsString)
    ensures |r| == if |s| <= n then |s| else n
    ensures r == s[..|r|]
  {
    if |s| <= n then s else s[..n]
  }

  /** `s.startsWith(prefix)`. */
  predicate StartsWith(s: JsString, prefix: JsString) {
    |prefix| <= |s| && s[..|prefix|] == prefix
  }

  /** `s.split(sep)` for a one-unit separator: the pieces between separators,
      so one more piece than there are separators and none containing one. */
  function Split(s: JsString, sep: CodeUnit): (parts: seq<JsString>)
    ensures |parts| == 1 + multiset(s)[sep]
    ensures forall i :: 0 <= i < |parts| ==> sep !in parts[i]
  {
    if s == [] then [[]]
    else
      assert s == [s[0]] + s[1..];
      var rest := Split(s[1..], sep);
      if s[0] == sep then [[]] + rest
      else [[s[0]] + rest[0]] + rest[1..]
  }

  /** `parts.join(sep)`. */
  function Join(parts: seq<JsString>, sep: JsString): JsString {
    if |parts| == 0 then []
    else if |parts| == 1 then parts[0]
    else parts[0] + sep + Join(parts[1..], sep)
  }

  /** Extending the first piece on the left extends the joined string on the left. */
  lemma JoinExtendFirst(a: JsString, b: JsString, rest: seq<JsString>, sep: JsString)
    ensures Join([a + b] + rest, sep) == a + Join([b] + rest, sep)
  {
    if |rest| > 0 {
      assert ([a + b] + rest)[1..] == rest;
      assert ([b] + rest)[1..] == rest;
    }
  }

  /** Joining the pieces of `s.split(sep)` with `sep` gives back `s`. */
  lemma {:induction false} JoinSplit(s: JsString, sep: CodeUnit)
    ensures Join(Split(s, sep), [sep]) == s
  {
    if s != [] {
      var rest := Split(s[1..], sep);
      JoinSplit(s[1..], sep);
      if s[0] == sep {
        assert ([[]] + rest)[1..] == rest;
      } else {
        JoinExtendFirst([s[0]], rest[0], rest[1..], [sep]);
        assert [rest[0]] + rest[1..] == rest;
      }
    }
  }

  /** The first index of `u` in `s`, or `|s|` when it does not occur
      (`indexOf`, with "absent" written as the length). */
  function IndexOf(s: JsString, u: CodeUnit): (k: nat)
    ensures k <= |s|
    ensures k < |s| ==> s[k] == u
    ensures forall i :: 0 <= i < k ==> s[i] != u
  {
    if s == [] then 0
    else if s[0] == u then 0
    else 1 + IndexOf(s[1..], u)
  }

  /** `Math.floor(Math.random() * n)` with the random number in [0, 1)
      given as the fraction `num / den`. */
  function FloorRandomIndex(n: nat, num: nat, den: nat): (k: nat)
    requires num < den
    ensures n > 0 ==> k < n
  {
    if n == 0 then 0
    else
      ScaledFractionBelow(n, num, den);
      (num * n) / den
  }

  lemma ScaledFractionBelow(n: nat, num: nat, den: nat)
    requires num < den && n > 0
    ensures (num * n) / den < n
  {
    var q := (num * n) / den;
    assert q * den <= num * n;
    assert num * n < den * n by {
      assert (den - num) * n > 0;
    }
    assert (n - q) * den > 0;
  }

  /** Every index below `n` is drawn for some random number in [0, 1). */
  lemma FloorRandomIndexReaches(n: nat, k: nat)
    requires k < n
    ensures FloorRandomIndex(n, k, n) == k
  {
    var q, r := (k * n) / n, (k * n) % n;
    assert (k - q) * n == r;
    MultipleBounds(k - q, n);
  }

  lemma MultipleBounds(d: int, n: nat)
    requires n > 0
    ensures d >= 1 ==> d * n >= n
    ensures d <= -1 ==> d * n <= 0 - n as int
  {
  }
}

=== FILE: migrate_standalone.dfy ===
/** The copies of the parser, the sanitiser and the write gate that
    scripts/migrate-standalone.ts carries, each shown to behave exactly as
    the library version it duplicates. */
module MigrateStandalone {

  import opened Results
  import opened Js
  import opened CsvParser
  import Firestore

  /** The fields a scan yields once `done` fields are closed and `current`
      is the open one, given the fields `rest` the unread input yields. */
  ghost function Glue(done: seq<JsString>, current: JsString, rest: seq<JsString>): seq<JsString>
    requires |rest| >= 1
  {
    done + [current + rest[0]] + rest[1..]
  }

  /** A separator closes the open field and opens an empty one. */
  lemma GlueCloseField(done: seq<JsString>, current: JsString, rest: seq<JsString>)
    requires |rest| >= 1
    ensures Glue(done, current, [[]] + rest) == Glue(done + [current], [], rest)
  {
    var empty: JsString := [];
    assert ([empty] + rest)[0] == empty && ([empty] + rest)[1..] == rest;
    assert current + empty == current;
    assert Glue(done, current, [empty] + rest) == done + [current] + rest;
    assert empty + rest[0] == rest[0];
    assert [rest[0]] + rest[1..] == rest;
  }

  /** Any other unit moves from the unread input to the open field. */
  lemma GlueExtendField(done: seq<JsString>, current: JsString, c: CodeUnit, rest: seq<JsString>)
    requires |rest| >= 1
    ensures Glue(done, current, [[c] + rest[0]] + rest[1..]) == Glue(done, current + [c], rest)
  {
    assert current + ([c] + rest[0]) == (current + [c]) + rest[0];
  }

  /** At the end of the line the open field is the last one. */
  lemma GlueEnd(done: seq<JsString>, current: JsString)
    ensures Glue(done, current, [[]]) == done + [current]
  {
    var empty: JsString := [];
    assert current + empty == current;
    assert [empty][1..] == [];
  }

  /** `parseCSVLine(line)` as the script's loop writes it: a result list, the
      field being built and the quote toggle. */
  method ScanCsvLine(line: JsString) returns (result: seq<JsString>)
    ensures result == ParseLine(line)
    ensures |result| >= 1
    ensures Join(result, [Comma]) == DeleteAll(line, IsQuote)
  {
    result := [];
    var current: JsString := [];
    var inQuotes := false;
    assert line[0..] == line;
    assert Glue(result, current, Scan(line, false)) == Scan(line, false) by {
      var all := Scan(line, false);
      var empty: JsString := [];
      assert empty + all[0] == all[0];
      assert [all[0]] + all[1..] == all;
    }
    for i := 0 to |line|
      invariant Glue(result, current, Scan(line[i..], inQuotes)) == Scan(line, false)
    {
      var c := line[i];
      assert line[i..][0] == c && line[i..][1..] == line[i + 1..];
      if c == DoubleQuote {
        inQuotes := !inQuotes;
      } else if c == Comma && !inQuotes {
        ghost var rest := Scan(line[i + 1..], inQuotes);
        assert Scan(line[i..], inQuotes) == [[]] + rest;
        GlueCloseField(result, current, rest);
        result := result + [current];
        current := [];
      } else {
        ghost var rest := Scan(line[i + 1..], inQuotes);
        assert Scan(line[i..], inQuotes) == [[c] + rest[0]] + rest[1..];
        GlueExtendField(result, current, c, rest);
        current := current + [c];
      }
    }
    assert line[|line|..] == [];
    GlueEnd(result, current);
    result := result + [current];
    ParseLineJoin(line);
  }

  /** The script's `parseCSV`: fewer than two lines give nothing; otherwise
      each data line is parsed and its record kept only when complete. */
  function ParseCsv(text: JsString): (qs: seq<Question>)
    ensures |Lines(text)| < 2 ==> qs == []
    ensures forall i :: 0 <= i < |qs| ==> IsComplete(qs[i])
  {
    var lines := Lines(text);
    if |lines| < 2 then [] else ParseRowsInline(lines[1..])
  }

  /** The loop of the script's `parseCSV`, with the completeness check made
      before each push. */
  function ParseRowsInline(rows: seq<JsString>): (qs: seq<Question>)
    ensures forall i :: 0 <= i < |qs| ==> IsComplete(qs[i])
  {
    if rows == [] then []
    else
      match RowCandidate(rows[0])
      case Some(q) => if IsComplete(q) then [q] + ParseRowsInline(rows[1..]) else ParseRowsInline(rows[1..])
      case None => ParseRowsInline(rows[1..])
  }

  lemma {:induction false} InlineFilterAgrees(rows: seq<JsString>)
    ensures ParseRowsInline(rows) == ParseRows(rows)
  {
    if rows != [] {
      InlineFilterAgrees(rows[1..]);
      match RowCandidate(rows[0])
      case Some(q) =>
        assert Candidates(rows) == [q] + Candidates(rows[1..]);
        assert ([q] + Candidates(rows[1..]))[1..] == Candidates(rows[1..]);
      case None =>
    }
  }

  /** The script's `parseCSV` returns the library's result for every text:
      the early return and the inline filter change nothing. */
  lemma ParseCsvAgrees(text: JsString)
    ensures ParseCsv(text) == CsvParser.ParseCsv(text)
  {
    var lines := Lines(text);
    if |lines| < 2 {
      assert lines[1..] == [];
    } else {
      InlineFilterAgrees(lines[1..]);
    }
  }

  /** The script's `fetchAndParseCSV`: the library's fetch contract around
      the script's own parser. */
  function FetchAndParseCsv(response: Response): (r: Result<seq<Question>, FetchError>)
    ensures r.Err? <==> response.TransportFailure? || !response.ok
    ensures r.Ok? ==> r.value == ParseCsv(response.body)
  {
    match response
    case TransportFailure => Err(FetchFailed)
    case Response(ok, body) => if !ok then Err(FetchFailed) else Ok(ParseCsv(body))
  }

  /** The script's fetch wrapper answers every response as the library's does. */
  lemma FetchAndParseCsvAgrees(response: Response)
    ensures FetchAndParseCsv(response) == CsvParser.FetchAndParseCsv(response)
  {
    if response.Response? && response.ok {
      ParseCsvAgrees(response.body);
    }
  }

  /** The class `[\x0B\x0C]`: vertical tab and form feed. */
  predicate IsVtOrFf(u: CodeUnit) {
    u == 0x0B || u == 0x0C
  }

  /** The script's `sanitizeString`, with its extra vertical-tab and
      form-feed pass: at most 1500 units and no C0 control or DEL. */
  function SanitizeString(value: JsString): (r: JsString)
    ensures |r| <= Firestore.MaxLength
    ensures forall i :: 0 <= i < |r| ==> !Firestore.IsControl(r[i])
  {
    if value == [] then []
    else
      var s := DeleteAll(DeleteAll(Trim(value), Firestore.IsNul), Firestore.IsControl);
      DeleteAllAbsent(s, IsVtOrFf);
      Take(DeleteAll(s, IsVtOrFf), Firestore.MaxLength)
  }

  /** The script's `sanitizeString` equals the library's: the extra pass finds
      nothing left to delete. */
  lemma SanitizeStringAgrees(value: JsString)
    ensures SanitizeString(value) == Firestore.SanitizeString(value)
  {
    if value != [] {
      var s := DeleteAll(DeleteAll(Trim(value), Firestore.IsNul), Firestore.IsControl);
      DeleteAllAbsent(s, IsVtOrFf);
    }
  }

  /** The script's `sanitizeUrl`, built on its own `sanitizeString`. */
  function SanitizeUrl(value: JsString, parses: UrlParser): (r: JsString)
    ensures r != [] ==> parses(r)
  {
    if value == [] then []
    else
      var s := SanitizeString(value);
      if parses(s) then s
      else if !Firestore.HasHttpScheme(s) then
        if parses(Firestore.HttpsPrefix + s) then Firestore.HttpsPrefix + s else []
      else []
  }

  /** The script's `sanitizeUrl` has the library's three-way outcome, for
      every URL parser. */
  lemma SanitizeUrlAgrees(value: JsString, parses: UrlParser)
    ensures SanitizeUrl(value, parses) == Firestore.SanitizeUrl(value, parses)
  {
    if value != [] {
      SanitizeStringAgrees(value);
      SanitizeUrlFromSameString(value, SanitizeString(value), parses);
    }
  }

  /** Both URL sanitisers build on the same sanitised string. */
  lemma SanitizeUrlFromSameString(value: JsString, s: JsString, parses: UrlParser)
    requires value != [] && s == SanitizeString(value) && s == Firestore.SanitizeString(value)
    ensures SanitizeUrl(value, parses) == Firestore.SanitizeUrl(value, parses)
  {
    var mine := SanitizeUrl(value, parses);
    var theirs := Firestore.SanitizeUrl(value, parses);
    if parses(s) {
      assert mine == s && theirs == s;
    } else if !Firestore.HasHttpScheme(s) {
      assert mine == theirs == (if parses(Firestore.HttpsPrefix + s) then Firestore.HttpsPrefix + s else []);
    } else {
      assert mine == [] && theirs == [];
    }
  }

  /** The script's `addQuestionToFirestore`: it fails without writing exactly
      when a sanitised field is empty, and agrees with the library's gate. */
  function AddQuestion(question: Question, parses: UrlParser): (r: Firestore.AddResult)
    ensures r.Rejected? <==>
      SanitizeString(question.title) == [] || SanitizeUrl(question.url, parses) == [] ||
      SanitizeString(question.site) == []
    ensures r.Written? ==> IsComplete(r.doc) && parses(r.doc.url)
  {
    var title := SanitizeString(question.title);
    var url := SanitizeUrl(question.url, parses);
    var site := SanitizeString(question.site);
    if title == [] || url == [] || site == [] then Firestore.Rejected
    else Firestore.Written(Question(title, url, site))
  }

  lemma AddQuestionAgrees(question: Question, parses: UrlParser)
    ensures AddQuestion(question, parses) == Firestore.AddQuestion(question, parses)
  {
    SanitizeStringAgrees(question.title);
    SanitizeStringAgrees(question.site);
    SanitizeUrlAgrees(question.url, parses);
  }
}

=== FILE: random_question_api.dfy ===
/** lib/random-question-api.ts: the shape check on one decoded response,
    the outcome of one single-question fetch, and the fold that turns the
    settled results of a batch into deduplicated questions and an error
    count. The concurrent fetches themselves are inputs. */
module RandomQuestionApi {

  import opened Results
  import opened Js
  import opened CsvParser

  /** A decoded JSON value. */
  datatype Json =
    | JNull
    | JBool(b: bool)
    | JNumber(n: real)
    | JString(s: JsString)
    | JArray(items: seq<Json>)
    | JObject(members: map<JsString, Json>)

  /** JavaScript truthiness of a decoded value. */
  predicate Truthy(j: Json) {
    match j
    case JNull => false
    case JBool(b) => b
    case JNumber(n) => n != 0.0
    case JString(s) => s != []
    case JArray(_) => true
    case JObject(_) => true
  }

  /** `typeof obj[name] === 'string'`: only an object member can be a string. */
  predicate HasStringMember(j: Json, name: JsString) {
    j.JObject? && name in j.members && j.members[name].JString?
  }

  const TitleKey: JsString := Lit("title")
  const UrlKey: JsString := Lit("url")
  const SiteKey: JsString := Lit("site")

  /** `isValidQuestion(obj)`. */
  predicate IsValidQuestion(j: Json) {
    Truthy(j) && HasStringMember(j, TitleKey) && HasStringMember(j, UrlKey) && HasStringMember(j, SiteKey)
  }

  /** A value passes the shape check exactly when it is an object whose
      `title`, `url` and `site` are strings; empty strings are allowed. */
  lemma IsValidQuestionShape(j: Json)
    ensures IsValidQuestion(j) <==>
      && j.JObject?
      && TitleKey in j.members && j.members[TitleKey].JString?
      && UrlKey in j.members && j.members[UrlKey].JString?
      && SiteKey in j.members && j.members[SiteKey].JString?
  {
  }

  /** The question a valid value stands for. */
  function ToQuestion(j: Json): (q: Question)
    requires IsValidQuestion(j)
    ensures JString(q.title) == j.members[TitleKey]
    ensures JString(q.url) == j.members[UrlKey]
    ensures JString(q.site) == j.members[SiteKey]
  {
    Question(j.members[TitleKey].s, j.members[UrlKey].s, j.members[SiteKey].s)
  }

  /** What one `fetch` of the endpoint produced: a rejected fetch (network
      failure, abort by the batch timer), or a response whose body decoded
      to a value, or failed to decode. */
  datatype Reply = NetworkFailure | Reply(ok: bool, status: int, body: Option<Json>)

  datatype FetchError = RequestFailed | BadStatus(status: int) | BadJson

  /** `fetchSingleRandom()`: a failed request, a non-ok status or an
      undecodable body is an error; a well-shaped body is its question; any
      other body is `null`. */
  function FetchSingleRandom(reply: Reply): (r: Result<Option<Question>, FetchError>)
    ensures reply.NetworkFailure? ==> r == Err(RequestFailed)
    ensures reply.Reply? && !reply.ok ==> r == Err(BadStatus(reply.status))
    ensures reply.Reply? && reply.ok && reply.body.Some? && IsValidQuestion(reply.body.value) ==>
      r == Ok(Some(ToQuestion(reply.body.value)))
    ensures reply.Reply? && reply.ok && reply.body.Some? && !IsValidQuestion(reply.body.value) ==>
      r == Ok(None)
    ensures reply.Reply? && reply.ok && reply.body.None? ==> r == Err(BadJson)
    ensures r.Ok? ==> reply.Reply? && reply.ok
  {
    match reply
    case NetworkFailure => Err(RequestFailed)
    case Reply(ok, status, body) =>
      if !ok then Err(BadStatus(status))
      else match body
        case None => Err(BadJson)
        case Some(data) => if IsValidQuestion(data) then Ok(Some(ToQuestion(data))) else Ok(None)
  }

  /** `fetchSingleRandom(signal).catch(() => null)`: a thrown error reads as `null`. */
  function Settle(r: Result<Option<Question>, FetchError>): (q: Option<Question>)
    ensures q.Some? <==> r.Ok? && r.value.Some?
    ensures q.Some? ==> q == r.value
  {
    match r
    case Ok(v) => v
    case Err(_) => None
  }

  /** The deduplication key `${q.title}|${q.url}`. */
  function Key(q: Question): JsString {
    q.title + [Bar] + q.url
  }

  /** The key is not injective: a `|` inside a title can make two different
      questions share one key, so the batch keeps only the first. */
  lemma KeyCollision()
    ensures var a := Question([0x61, Bar], [0x62], []);
            var b := Question([0x61], [Bar, 0x62], []);
            a != b && Key(a) == Key(b)
  {
  }

  /** Without a `|` in either title the key does identify the title and the
      URL: the first `|` of the key is the separator. */
  lemma KeyDeterminesTitleAndUrl(a: Question, b: Question)
    requires Bar !in a.title && Bar !in b.title
    ensures Key(a) == Key(b) <==> a.title == b.title && a.url == b.url
  {
    if Key(a) == Key(b) {
      KeySplitsAtFirstBar(a);
      KeySplitsAtFirstBar(b);
    }
  }

  lemma KeySplitsAtFirstBar(q: Question)
    requires Bar !in q.title
    ensures var k := Key(q);
      IndexOf(k, Bar) == |q.title| && k[..|q.title|] == q.title && k[|q.title| + 1..] == q.url
  {
    var k := Key(q);
    assert k[|q.title|] == Bar;
    assert forall i :: 0 <= i < |q.title| ==> k[i] == q.title[i];
    assert k[..|q.title|] == q.title;
    assert k[|q.title| + 1..] == q.url;
  }

  /** Number of `null` results. */
  function CountNone(rs: seq<Option<Question>>): (n: nat)
    ensures n <= |rs|
  {
    if rs == [] then 0
    else CountNone(rs[..|rs| - 1]) + (if rs[|rs| - 1].None? then 1 else 0)
  }

  /** Result `i` is the first non-null result with its key. */
  predicate IsFirstOfKey(rs: seq<Option<Question>>, i: nat)
    requires i < |rs| && rs[i].Some?
  {
    forall j :: 0 <= j < i && rs[j].Some? ==> Key(rs[j].value) != Key(rs[i].value)
  }

  /** Reference definition of the deduplicated list: the first result with
      each key, in the order of those first occurrences. */
  function FirstSeen(rs: seq<Option<Question>>): (qs: seq<Question>)
  {
    if rs == [] then []
    else
      var last := |rs| - 1;
      FirstSeen(rs[..last]) + (if rs[last].Some? && IsFirstOfKey(rs, last) then [rs[last].value] else [])
  }

  /** The keys of the non-null results. */
  ghost function ResultKeys(rs: seq<Option<Question>>): set<JsString> {
    set i | 0 <= i < |rs| && rs[i].Some? :: Key(rs[i].value)
  }

  function KeySet(qs: seq<Question>): set<JsString> {
    set i | 0 <= i < |qs| :: Key(qs[i])
  }

  /** Keys pairwise distinct. */
  predicate DistinctKeys(qs: seq<Question>) {
    forall i, j :: 0 <= i < j < |qs| ==> Key(qs[i]) != Key(qs[j])
  }

  /** The first-seen list has exactly the keys of the non-null results, each
      once, and is no longer than the number of non-null results. */
  lemma {:induction false} FirstSeenKeys(rs: seq<Option<Question>>)
    ensures KeySet(FirstSeen(rs)) == ResultKeys(rs)
    ensures DistinctKeys(FirstSeen(rs))
    ensures |FirstSeen(rs)| + CountNone(rs) <= |rs|
  {
    if rs != [] {
      var last := |rs| - 1;
      var init := rs[..last];
      FirstSeenKeys(init);
      var prev := FirstSeen(init);
      assert forall i :: 0 <= i < |init| ==> init[i] == rs[i];
      if rs[last].Some? && IsFirstOfKey(rs, last) {
        var q := rs[last].value;
        var qs := prev + [q];
        assert Key(q) !in ResultKeys(init);
        assert KeySet(qs) == KeySet(prev) + {Key(q)} by {
          assert forall i :: 0 <= i < |prev| ==> qs[i] == prev[i];
          assert qs[|prev|] == q;
        }
        assert ResultKeys(rs) == ResultKeys(init) + {Key(q)};
      } else {
        assert FirstSeen(rs) == prev;
        if rs[last].Some? {
          var j :| 0 <= j < last && rs[j].Some? && Key(rs[j].value) == Key(rs[last].value);
          assert Key(init[j].value) in ResultKeys(init);
        }
        assert ResultKeys(rs) == ResultKeys(init);
      }
    }
  }

  /** The outcome of `fetchBatch`. */
  datatype FetchResult = FetchResult(questions: seq<Question>, errors: nat)

  /** The fold of `fetchBatch` over the settled results, in their order (the
      order `Promise.all` keeps). The `Map` is the set of keys seen so far
      together with its values in insertion order. */
  method FetchBatch(results: seq<Option<Question>>) returns (r: FetchResult)
    ensures r.errors == CountNone(results)
    ensures r.questions == FirstSeen(results)
    ensures KeySet(r.questions) == ResultKeys(results)
    ensures DistinctKeys(r.questions)
    ensures |r.questions| + r.errors <= |results|
  {
    var values: seq<Question> := [];
    var seen: set<JsString> := {};
    var errors: nat := 0;
    for i := 0 to |results|
      invariant values == FirstSeen(results[..i])
      invariant seen == KeySet(values)
      invariant errors == CountNone(results[..i])
    {
      var prefix := results[..i + 1];
      assert prefix[..i] == results[..i];
      FirstSeenKeys(results[..i]);
      var q := results[i];
      if q.None? {
        errors := errors + 1;
        continue;
      }
      var key := Key(q.value);
      if key !in seen {
        assert IsFirstOfKey(prefix, i) by {
          forall j | 0 <= j < i && prefix[j].Some?
            ensures Key(prefix[j].value) != Key(prefix[i].value)
          {
            assert prefix[j] == results[..i][j];
          }
        }
        var before := values;
        values := before + [q.value];
        seen := seen + {key};
        assert KeySet(values) == KeySet(before) + {key} by {
          assert forall k :: 0 <= k < |before| ==> values[k] == before[k];
          assert values[|before|] == q.value;
        }
      } else {
        assert key in ResultKeys(results[..i]);
        var j :| 0 <= j < i && results[..i][j].Some? && Key(results[..i][j].value) == key;
        assert !IsFirstOfKey(prefix, i) by {
          assert prefix[j] == results[..i][j];
        }
      }
    }
    assert results[..|results|] == results;
    FirstSeenKeys(results);
    r := FetchResult(values, errors);
  }

  /** When every call fails, the batch has no questions and `desired` errors. */
  lemma {:induction false} AllFailed(results: seq<Option<Question>>)
    requires forall i :: 0 <= i < |results| ==> results[i].None?
    ensures FirstSeen(results) == []
    ensures CountNone(results) == |results|
  {
    if results != [] {
      var init := results[..|results| - 1];
      AllFailed(init);
    }
  }

  /** The batch the fetch layer produces from its replies: each reply goes
      through `fetchSingleRandom` and the catch-to-null. */
  function SettledResults(replies: seq<Reply>): (rs: seq<Option<Question>>)
    ensures |rs| == |replies|
    ensures forall i :: 0 <= i < |rs| ==> rs[i] == Settle(FetchSingleRandom(replies[i]))
    ensures forall i :: 0 <= i < |rs| ==> (rs[i].Some? <==> Delivers(replies[i]))
    ensures forall i :: 0 <= i < |rs| && Delivers(replies[i]) ==> rs[i] == Some(ToQuestion(replies[i].body.value))
  {
    seq(|replies|, i requires 0 <= i < |replies| => Settle(FetchSingleRandom(replies[i])))
  }

  /** The error count counts every reply that failed, had a bad status, an
      undecodable body or the wrong shape. */
  lemma {:induction false} ErrorsCountFailedReplies(replies: seq<Reply>)
    ensures CountNone(SettledResults(replies)) == |set i | 0 <= i < |replies| && !Delivers(replies[i])|
  {
    if replies != [] {
      var last := |replies| - 1;
      ErrorsCountFailedReplies(replies[..last]);
      SettledResultsSnoc(replies);
      FailedSetSnoc(replies);
    }
  }

  /** The settled results of all replies extend those of all but the last. */
  lemma SettledResultsSnoc(replies: seq<Reply>)
    requires replies != []
    ensures var last := |replies| - 1;
      var rs := SettledResults(replies);
      SettledResults(replies[..last]) == rs[..last] &&
      CountNone(rs) == CountNone(rs[..last]) + (if Delivers(replies[last]) then 0 else 1)
  {
  }

  /** The failed replies among all replies: those among all but the last,
      plus the last one when it failed. */
  lemma FailedSetSnoc(replies: seq<Reply>)
    requires replies != []
    ensures var last := |replies| - 1;
      |set i | 0 <= i < |replies| && !Delivers(replies[i])| ==
      |set i | 0 <= i < last && !Delivers(replies[..last][i])| + (if Delivers(replies[last]) then 0 else 1)
  {
    var last := |replies| - 1;
    var before := set i | 0 <= i < last && !Delivers(replies[..last][i]);
    var now := set i | 0 <= i < |replies| && !Delivers(replies[i]);
    assert before == set i | 0 <= i < last && !Delivers(replies[i]);
    if Delivers(replies[last]) {
      assert now == before;
    } else {
      assert now == before + {last};
    }
  }

  /** The reply yields a question. */
  predicate Delivers(reply: Reply) {
    reply.Reply? && reply.ok && reply.body.Some? && IsValidQuestion(reply.body.value)
  }

  /** Extending the results by one: the new result joins the list exactly
      when it is a question whose key no earlier question had. */
  lemma FirstSeenSnoc(rs: seq<Option<Question>>, x: Option<Question>)
    ensures FirstSeen(rs + [x]) ==
      FirstSeen(rs) + (if x.Some? && forall j :: 0 <= j < |rs| && rs[j].Some? ==> Key(rs[j].value) != Key(x.value)
                       then [x.value] else [])
  {
    var rx := rs + [x];
    assert rx[..|rs|] == rs;
    if x.Some? {
      IsFirstOfKeySnoc(rs, x);
    }
  }

  lemma IsFirstOfKeySnoc(rs: seq<Option<Question>>, x: Option<Question>)
    requires x.Some?
    ensures IsFirstOfKey(rs + [x], |rs|) <==>
      forall j :: 0 <= j < |rs| && rs[j].Some? ==> Key(rs[j].value) != Key(x.value)
  {
    assert forall j :: 0 <= j < |rs| ==> (rs + [x])[j] == rs[j];
  }

  /** Extending the results by one adds one error exactly for a `null`. */
  lemma CountNoneSnoc(rs: seq<Option<Question>>, x: Option<Question>)
    ensures CountNone(rs + [x]) == CountNone(rs) + (if x.None? then 1 else 0)
  {
    assert (rs + [x])[..|rs|] == rs;
  }

  /** A batch of five calls: calls 1 and 3 fail, calls 0 and 2 return the
      same question and call 4 another one. */
  lemma BatchExample(q: Question, p: Question)
    requires Key(q) != Key(p)
    ensures var rs := [Some(q), None, Some(q), None, Some(p)];
      FirstSeen(rs) == [q, p] && CountNone(rs) == 2
  {
    var r0: seq<Option<Question>> := [];
    var r1 := [Some(q)];
    var r2 := [Some(q), None];
    var r3 := [Some(q), None, Some(q)];
    var r4 := [Some(q), None, Some(q), None];
    var r5 := [Some(q), None, Some(q), None, Some(p)];
    assert FirstSeen(r1) == [q] && CountNone(r1) == 0 by {
      assert r0 + [Some(q)] == r1;
      FirstSeenSnoc(r0, Some(q));
      CountNoneSnoc(r0, Some(q));
    }
    assert FirstSeen(r2) == [q] && CountNone(r2) == 1 by {
      assert r1 + [None] == r2;
      FirstSeenSnoc(r1, None);
      CountNoneSnoc(r1, None);
    }
    assert FirstSeen(r3) == [q] && CountNone(r3) == 1 by {
      assert r2 + [Some(q)] == r3;
      FirstSeenSnoc(r2, Some(q));
      CountNoneSnoc(r2, Some(q));
      assert r2[0] == Some(q);
    }
    assert FirstSeen(r4) == [q] && CountNone(r4) == 2 by {
      assert r3 + [None] == r4;
      FirstSeenSnoc(r3, None);
      CountNoneSnoc(r3, None);
    }
    assert FirstSeen(r5) == [q, p] && CountNone(r5) == 2 by {
      assert r4 + [Some(p)] == r5;
      FirstSeenSnoc(r4, Some(p));
      CountNoneSnoc(r4, Some(p));
      assert forall j :: 0 <= j < |r4| && r4[j].Some? ==> r4[j].value == q;
    }
  }
}

=== FILE: results.dfy ===
/** Optional values and success/failure outcomes, standing in for JavaScript's
    `undefined`/`null` and for a rejected promise or a thrown error. */
module Results {

  /** A value that may be absent (`undefined` or `null` in the application). */
  datatype Option<+T> = None | Some(value: T)

  /** The settled outcome of an operation that may throw. */
  datatype Result<+T, +E> = Ok(value: T) | Err(error: E)
}

=== FILE: submit_question_form.dfy ===
/** The decision logic of components/submit-question-form.tsx: field
    validation (including the email pattern), the input-change handler, and
    the skeleton of the submit handler with the outcomes of the rate-limit
    check and the Firestore write passed in. */
module SubmitQuestionForm {

  import opened Results
  import opened Js
  import opened CsvParser
  import Firestore
  import UseRateLimit

  /** What the user typed. */
  datatype FormData = FormData(question: JsString, url: JsString, email: JsString, site: JsString)

  datatype Field = QuestionField | UrlField | EmailField | SiteField

  /** One field's error message, as an enumeration of the messages shown. */
  datatype FieldError =
    | QuestionRequired | QuestionTooShort
    | UrlRequired | UrlInvalid
    | EmailRequired | EmailInvalid
    | SiteRequired

  /** The form's `errors` object: a field without an error has no entry. */
  datatype FormErrors = FormErrors(
    question: Option<FieldError>, url: Option<FieldError>,
    email: Option<FieldError>, site: Option<FieldError>)

  const NoErrors := FormErrors(None, None, None, None)

  function ValueOf(form: FormData, f: Field): JsString {
    match f
    case QuestionField => form.question
    case UrlField => form.url
    case EmailField => form.email
    case SiteField => form.site
  }

  function ErrorOf(errors: FormErrors, f: Field): Option<FieldError> {
    match f
    case QuestionField => errors.question
    case UrlField => errors.url
    case EmailField => errors.email
    case SiteField => errors.site
  }

  /** The minimum untrimmed length of a question. */
  const MinQuestionLength: nat := 10

  /** The question check: blank after trimming, or shorter than ten units
      before trimming. */
  function QuestionError(question: JsString): (e: Option<FieldError>)
    ensures e.Some? <==> IsBlank(question) || |question| < MinQuestionLength
    ensures IsBlank(question) ==> e == Some(QuestionRequired)
    ensures !IsBlank(question) && |question| < MinQuestionLength ==> e == Some(QuestionTooShort)
  {
    if IsBlank(question) then Some(QuestionRequired)
    else if |question| < MinQuestionLength then Some(QuestionTooShort)
    else None
  }

  /** The URL check: blank, or rejected by the URL parser as typed. */
  function UrlError(url: JsString, parses: UrlParser): (e: Option<FieldError>)
    ensures e.Some? <==> IsBlank(url) || !parses(url)
    ensures IsBlank(url) ==> e == Some(UrlRequired)
    ensures !IsBlank(url) && !parses(url) ==> e == Some(UrlInvalid)
  {
    if IsBlank(url) then Some(UrlRequired)
    else if !parses(url) then Some(UrlInvalid)
    else None
  }

  /** A unit of the regular-expression class `[^\s@]`. */
  predicate IsAddressUnit(u: CodeUnit) {
    !IsWhitespace(u) && u != At
  }

  predicate AllAddressUnits(s: JsString) {
    forall i :: 0 <= i < |s| ==> IsAddressUnit(s[i])
  }

  /** The strings `^[^\s@]+@[^\s@]+\.[^\s@]+$` matches: a non-empty run of
      address units, `@`, a non-empty run, a `.`, and a non-empty run. */
  ghost predicate MatchesEmailRegex(s: JsString) {
    exists a, d :: EmailSplit(s, a, d)
  }

  /** `s` is the local part `s[..a]`, `@`, the domain name `s[a + 1..d]`, `.`,
      and the last label `s[d + 1..]`, each a non-empty run of address units. */
  predicate EmailSplit(s: JsString, a: int, d: int) {
    && 0 < a && a + 1 < d && d + 1 < |s|
    && s[a] == At && s[d] == Dot
    && AllAddressUnits(s[..a]) && AllAddressUnits(s[a + 1..d]) && AllAddressUnits(s[d + 1..])
  }

  /** A `.` strictly inside `s`, with at least one unit on each side. */
  predicate HasInnerDot(s: JsString) {
    exists k :: 0 < k < |s| - 1 && s[k] == Dot
  }

  /** The email test the form runs: split at the first `@`, then check both
      sides and look for an inner `.` in the domain. */
  predicate EmailPattern(s: JsString) {
    var a := IndexOf(s, At);
    && 0 < a < |s|
    && AllAddressUnits(s[..a])
    && AllAddressUnits(s[a + 1..])
    && HasInnerDot(s[a + 1..])
  }

  /** The email test accepts exactly the strings the regular expression matches. */
  lemma EmailPatternMatchesRegex(s: JsString)
    ensures EmailPattern(s) <==> MatchesEmailRegex(s)
  {
    if EmailPattern(s) {
      var a := IndexOf(s, At);
      var domain := s[a + 1..];
      var k :| 0 < k < |domain| - 1 && domain[k] == Dot;
      var d := a + 1 + k;
      assert s[d] == Dot;
      assert s[a + 1..d] == domain[..k];
      assert s[d + 1..] == domain[k + 1..];
      assert EmailSplit(s, a, d);
    }
    if MatchesEmailRegex(s) {
      var a, d :| EmailSplit(s, a, d);
      assert forall i :: 0 <= i < a ==> s[i] == s[..a][i];
      assert IndexOf(s, At) == a;
      var domain := s[a + 1..];
      assert forall i :: 0 <= i < |domain| ==> IsAddressUnit(domain[i]) by {
        forall i | 0 <= i < |domain| ensures IsAddressUnit(domain[i]) {
          if i < d - (a + 1) {
            assert domain[i] == s[a + 1..d][i];
          } else if i > d - (a + 1) {
            assert domain[i] == s[d + 1..][i - (d - a)];
          } else {
            assert domain[i] == Dot;
          }
        }
      }
      assert domain[d - (a + 1)] == Dot;
    }
  }

  /** An accepted address holds exactly one `@`. */
  lemma EmailPatternSingleAt(s: JsString)
    requires EmailPattern(s)
    ensures multiset(s)[At] == 1
  {
    var a := IndexOf(s, At);
    var local, domain := s[..a], s[a + 1..];
    assert s == local + [At] + domain;
    NoAtCount(local);
    NoAtCount(domain);
    assert multiset(s) == multiset(local) + multiset([At]) + multiset(domain);
  }

  /** An accepted address holds no whitespace. */
  lemma EmailPatternNoWhitespace(s: JsString)
    requires EmailPattern(s)
    ensures forall i :: 0 <= i < |s| ==> !IsWhitespace(s[i])
  {
    var a := IndexOf(s, At);
    forall i | 0 <= i < |s| ensures !IsWhitespace(s[i]) {
      if i < a {
        assert s[i] == s[..a][i];
      } else if i > a {
        assert s[i] == s[a + 1..][i - a - 1];
      }
    }
  }

  /** A run of address units holds no `@`. */
  lemma NoAtCount(s: JsString)
    requires AllAddressUnits(s)
    ensures multiset(s)[At] == 0
  {
    assert At !in s;
  }

  /** The email check: blank, or not matching the pattern. */
  function EmailError(email: JsString): (e: Option<FieldError>)
    ensures e.Some? <==> IsBlank(email) || !MatchesEmailRegex(email)
    ensures IsBlank(email) ==> e == Some(EmailRequired)
    ensures !IsBlank(email) && !MatchesEmailRegex(email) ==> e == Some(EmailInvalid)
  {
    EmailPatternMatchesRegex(email);
    if IsBlank(email) then Some(EmailRequired)
    else if !EmailPattern(email) then Some(EmailInvalid)
    else None
  }

  /** The site check: blank after trimming. */
  function SiteError(site: JsString): (e: Option<FieldError>)
    ensures e.Some? <==> IsBlank(site)
    ensures e.Some? ==> e == Some(SiteRequired)
  {
    if IsBlank(site) then Some(SiteRequired) else None
  }

  /** The `newErrors` object `validateForm` builds. */
  function Validate(form: FormData, parses: UrlParser): (errors: FormErrors)
    ensures errors.question.Some? <==> IsBlank(form.question) || |form.question| < MinQuestionLength
    ensures errors.url.Some? <==> IsBlank(form.url) || !parses(form.url)
    ensures errors.email.Some? <==> IsBlank(form.email) || !MatchesEmailRegex(form.email)
    ensures errors.site.Some? <==> IsBlank(form.site)
  {
    FormErrors(QuestionError(form.question), UrlError(form.url, parses), EmailError(form.email), SiteError(form.site))
  }

  /** Each entry of `newErrors` is the message of that field's own check:
      "required" for a blank field, otherwise the field's specific complaint. */
  lemma ValidateMessages(form: FormData, parses: UrlParser)
    ensures var errors := Validate(form, parses);
      && (IsBlank(form.question) ==> errors.question == Some(QuestionRequired))
      && (!IsBlank(form.question) && |form.question| < MinQuestionLength ==> errors.question == Some(QuestionTooShort))
      && (IsBlank(form.url) ==> errors.url == Some(UrlRequired))
      && (!IsBlank(form.url) && !parses(form.url) ==> errors.url == Some(UrlInvalid))
      && (IsBlank(form.email) ==> errors.email == Some(EmailRequired))
      && (!IsBlank(form.email) && !MatchesEmailRegex(form.email) ==> errors.email == Some(EmailInvalid))
      && (errors.site.Some? ==> errors.site == Some(SiteRequired))
  {
  }

  /** `validateForm()`'s verdict: `Object.keys(newErrors).length === 0`. */
  predicate IsValid(form: FormData, parses: UrlParser) {
    Validate(form, parses) == NoErrors
  }

  /** `validateForm()` succeeds exactly when every field is acceptable. */
  lemma ValidIffFieldsAcceptable(form: FormData, parses: UrlParser)
    ensures IsValid(form, parses) <==>
      && !IsBlank(form.question) && |form.question| >= MinQuestionLength
      && !IsBlank(form.url) && parses(form.url)
      && !IsBlank(form.email) && MatchesEmailRegex(form.email)
      && !IsBlank(form.site)
  {
    var e := Validate(form, parses);
    assert e == NoErrors <==> e.question.None? && e.url.None? && e.email.None? && e.site.None?;
  }

  /** Each field's error depends on that field alone. */
  lemma ErrorsAreLocal(f1: FormData, f2: FormData, field: Field, parses: UrlParser)
    requires ValueOf(f1, field) == ValueOf(f2, field)
    ensures ErrorOf(Validate(f1, parses), field) == ErrorOf(Validate(f2, parses), field)
  {
  }

  /** The box shown after a rate-limit denial (its `blocked` flag is always set). */
  datatype RateLimitInfo = RateLimitInfo(reason: Option<JsString>, retryAfter: Option<int>)

  /** The component's state. */
  datatype FormState = FormState(
    form: FormData,
    errors: FormErrors,
    isSubmitting: bool,
    isSubmitted: bool,
    submitError: Option<JsString>,
    rateLimitInfo: Option<RateLimitInfo>)

  const InitialState := FormState(FormData([], [], [], []), NoErrors, false, false, None, None)

  const GenericSubmitError: JsString := Lit("Failed to submit question. Please wait a moment and try again.")

  function WithValue(form: FormData, f: Field, value: JsString): FormData {
    match f
    case QuestionField => form.(question := value)
    case UrlField => form.(url := value)
    case EmailField => form.(email := value)
    case SiteField => form.(site := value)
  }

  function Cleared(errors: FormErrors, f: Field): FormErrors {
    match f
    case QuestionField => errors.(question := None)
    case UrlField => errors.(url := None)
    case EmailField => errors.(email := None)
    case SiteField => errors.(site := None)
  }

  /** `handleInputChange(field, value)`: the edited field takes the value and
      loses its error; every other field, every other error and the rest of
      the state are unchanged. */
  function HandleInputChange(st: FormState, field: Field, value: JsString): (r: FormState)
    ensures ValueOf(r.form, field) == value
    ensures ErrorOf(r.errors, field).None?
    ensures forall f: Field :: f != field ==>
      ValueOf(r.form, f) == ValueOf(st.form, f) && ErrorOf(r.errors, f) == ErrorOf(st.errors, f)
    ensures r.isSubmitting == st.isSubmitting && r.isSubmitted == st.isSubmitted
    ensures r.submitError == st.submitError && r.rateLimitInfo == st.rateLimitInfo
  {
    var st' := st.(form := WithValue(st.form, field, value));
    if ErrorOf(st.errors, field).Some? then st'.(errors := Cleared(st.errors, field)) else st'
  }

  /** The effect on the form of the rate-limit hook's status: a denial shows
      its reason and wait. */
  function SyncRateLimit(st: FormState, status: UseRateLimit.Status): (r: FormState)
    ensures !status.isAllowed ==> r == st.(rateLimitInfo := Some(RateLimitInfo(status.reason, status.retryAfter)))
    ensures status.isAllowed ==> r == st
  {
    if !status.isAllowed then st.(rateLimitInfo := Some(RateLimitInfo(status.reason, status.retryAfter)))
    else st
  }

  /** On a form opened with no rate-limit box, the box the hook's status
      puts up reports a denial that some rate-limit check actually returned,
      with the hook's reason and wait. */
  lemma RateLimitBoxComesFromDenial(st: FormState, events: seq<UseRateLimit.Event>)
    requires st.rateLimitInfo.None?
    ensures var status := UseRateLimit.Run(events);
      var r := SyncRateLimit(st, status);
      r.rateLimitInfo.Some? ==>
        && (exists i :: 0 <= i < |events| && UseRateLimit.IsDenial(events[i]))
        && r.rateLimitInfo.value == RateLimitInfo(status.reason, status.retryAfter)
  {
    UseRateLimit.DenialComesFromCheck(events);
  }

  /** "Submit Another Question": back to the form, emptied. */
  function SubmitAnother(st: FormState): (r: FormState)
    ensures !r.isSubmitted
    ensures forall f: Field :: ValueOf(r.form, f) == []
    ensures r.errors == st.errors && r.rateLimitInfo == st.rateLimitInfo
    ensures r.submitError == st.submitError && r.isSubmitting == st.isSubmitting
  {
    st.(isSubmitted := false, form := FormData([], [], [], []))
  }

  /** What the outside world answers during one submission. */
  datatype Environment = Environment(
    useFirebase: bool,
    rateCheck: Result<Firestore.RateLimitCheck, JsError>,
    storeError: Option<JsError>,
    parses: UrlParser)

  /** What the submission did to the outside world: whether it asked for a
      rate-limit decision, and the record it stored, if any. */
  datatype Effects = Effects(rateChecked: bool, stored: Option<Question>)

  /** The record handed to `addQuestionToFirestore`: title, URL and site only. */
  function Payload(form: FormData): Question {
    Question(form.question, form.url, form.site)
  }

  const RateLimitCode: JsString := Lit("rate-limit-exceeded")

  /** The `catch` block. */
  function Caught(st: FormState, e: JsError): (r: FormState)
    ensures r.form == st.form && r.errors == st.errors
    ensures r.isSubmitting == st.isSubmitting && r.isSubmitted == st.isSubmitted
    ensures r.rateLimitInfo.Some? || r.submitError == Some(GenericSubmitError)
    ensures e.code == Some(RateLimitCode) ==>
      r.rateLimitInfo == Some(RateLimitInfo(Some(e.message), e.retryAfter)) && r.submitError == st.submitError
    ensures e.code != Some(RateLimitCode) ==>
      r.submitError == Some(GenericSubmitError) && r.rateLimitInfo == st.rateLimitInfo
  {
    if e.code == Some(RateLimitCode) then
      st.(rateLimitInfo := Some(RateLimitInfo(Some(e.message), e.retryAfter)))
    else
      st.(submitError := Some(GenericSubmitError))
  }

  /** The `catch` block does not touch the in-progress flag. */
  lemma CaughtKeepsSubmitting(st: FormState, e: JsError, b: bool)
    ensures Caught(st.(isSubmitting := b), e) == Caught(st, e).(isSubmitting := b)
  {
  }

  /** The error `addQuestionToFirestore` throws for an incomplete record: it
      carries no `code` (its message also embeds the record as JSON, which
      this model does not render, since the form never shows it). */
  const InvalidDataError := JsError(None, Lit("Invalid question data"), None)

  /** The `try` block after validation. */
  function Attempt(st: FormState, env: Environment): (r: (FormState, Effects))
    ensures r.0.form == st.form && r.0.errors == st.errors && r.0.isSubmitting == st.isSubmitting
    ensures !env.useFirebase ==> r.0 == st.(isSubmitted := true) && r.1 == Effects(false, None)
    ensures env.useFirebase ==> r.1.rateChecked
    ensures env.useFirebase && env.rateCheck.Ok? && !env.rateCheck.value.allowed ==>
      r == (st.(rateLimitInfo := Some(RateLimitInfo(env.rateCheck.value.reason, env.rateCheck.value.retryAfter))), Effects(true, None))
    ensures r.1.stored.Some? ==>
      && env.useFirebase && env.rateCheck.Ok? && env.rateCheck.value.allowed
      && Firestore.AddQuestion(Payload(st.form), env.parses) == Firestore.Written(r.1.stored.value)
      && r.0.isSubmitted
    ensures r.0.isSubmitted && !st.isSubmitted ==> !env.useFirebase || r.1.stored.Some?
    // a submission that goes through changes only the submitted flag
    ensures !env.useFirebase || r.1.stored.Some? ==> r.0 == st.(isSubmitted := true)
    // a failed write is caught: nothing is stored and success is not reported
    ensures env.useFirebase && env.storeError.Some? ==> r.1.stored.None? && r.0.isSubmitted == st.isSubmitted
    // an allowed, accepted and completed write is stored and reported
    ensures var add := Firestore.AddQuestion(Payload(st.form), env.parses);
      env.useFirebase && env.rateCheck.Ok? && env.rateCheck.value.allowed && env.storeError.None? && add.Written? ==>
        r == (st.(isSubmitted := true), Effects(true, Some(add.doc)))
    // every throw reaches the `catch` block
    ensures env.useFirebase && env.rateCheck.Err? ==> r == (Caught(st, env.rateCheck.error), Effects(true, None))
    ensures var add := Firestore.AddQuestion(Payload(st.form), env.parses);
      env.useFirebase && env.rateCheck.Ok? && env.rateCheck.value.allowed && add.Rejected? ==>
        r == (Caught(st, InvalidDataError), Effects(true, None))
    ensures var add := Firestore.AddQuestion(Payload(st.form), env.parses);
      env.useFirebase && env.rateCheck.Ok? && env.rateCheck.value.allowed && env.storeError.Some? && add.Written? ==>
        r == (Caught(st, env.storeError.value), Effects(true, None))
  {
    if !env.useFirebase then (st.(isSubmitted := true), Effects(false, None))
    else match env.rateCheck
      case Err(e) => (Caught(st, e), Effects(true, None))
      case Ok(check) =>
        if !check.allowed then
          (st.(rateLimitInfo := Some(RateLimitInfo(check.reason, check.retryAfter))), Effects(true, None))
        else match Firestore.AddQuestion(Payload(st.form), env.parses)
          case Rejected => (Caught(st, InvalidDataError), Effects(true, None))
          case Written(doc) =>
            if env.storeError.Some? then (Caught(st, env.storeError.value), Effects(true, None))
            else (st.(isSubmitted := true), Effects(true, Some(doc)))
  }

  /** `handleSubmit`: validate; on an invalid form stop there; otherwise mark
      the submission in progress, clear the previous messages, attempt it and
      finally clear the in-progress flag. */
  function HandleSubmit(st: FormState, env: Environment): (r: (FormState, Effects))
    // an invalid form: no rate-limit check, no write, only the errors change
    ensures !IsValid(st.form, env.parses) ==>
      && r.0 == st.(errors := Validate(st.form, env.parses))
      && r.1 == Effects(false, None)
    // a valid form always ends with the in-progress flag cleared
    ensures IsValid(st.form, env.parses) ==> !r.0.isSubmitting && r.0.errors == NoErrors
    // a rate-limit denial is shown and nothing is written
    ensures IsValid(st.form, env.parses) && env.useFirebase && env.rateCheck.Ok? && !env.rateCheck.value.allowed ==>
      && r.0.rateLimitInfo == Some(RateLimitInfo(env.rateCheck.value.reason, env.rateCheck.value.retryAfter))
      && r.1 == Effects(true, None)
      && r.0.isSubmitted == st.isSubmitted
      && r.0.submitError.None?
    // only a write the rate limiter allowed is stored, and it is the sanitised payload
    ensures r.1.stored.Some? ==>
      && IsValid(st.form, env.parses) && env.useFirebase && r.1.rateChecked
      && env.rateCheck.Ok? && env.rateCheck.value.allowed
      && Firestore.AddQuestion(Payload(st.form), env.parses) == Firestore.Written(r.1.stored.value)
      && r.0.isSubmitted
    // success is only reported for a valid form that was stored or sent to the simulated backend
    ensures r.0.isSubmitted ==>
      st.isSubmitted || (IsValid(st.form, env.parses) && (!env.useFirebase || r.1.stored.Some?))
    // a failed write is caught: nothing is stored and success is not reported
    ensures env.useFirebase && env.storeError.Some? ==> r.1.stored.None? && r.0.isSubmitted == st.isSubmitted
    // a valid submission that goes through clears the previous messages
    ensures IsValid(st.form, env.parses) && (!env.useFirebase || r.1.stored.Some?) ==>
      r.0.submitError.None? && r.0.rateLimitInfo.None?
    // a rate-limit check that throws is handled by the `catch` block, on the cleared state
    ensures IsValid(st.form, env.parses) && env.useFirebase && env.rateCheck.Err? ==>
      r.0 == Caught(st.(errors := NoErrors, submitError := None, rateLimitInfo := None), env.rateCheck.error).(isSubmitting := false)
    // a valid form is reported submitted with the simulated backend
    ensures IsValid(st.form, env.parses) && !env.useFirebase ==> r.0.isSubmitted
    // a valid form that is allowed, accepted and written is stored and reported
    ensures var add := Firestore.AddQuestion(Payload(st.form), env.parses);
      IsValid(st.form, env.parses) && env.useFirebase && env.rateCheck.Ok? && env.rateCheck.value.allowed &&
      env.storeError.None? && add.Written? ==>
        r.1.stored == Some(add.doc) && r.0.isSubmitted
    ensures r.0.form == st.form
  {
    var errors := Validate(st.form, env.parses);
    var st0 := st.(errors := errors);
    if errors != NoErrors then (st0, Effects(false, None))
    else
      var cleared := st0.(submitError := None, rateLimitInfo := None);
      var st1 := cleared.(isSubmitting := true);
      CaughtKeepsSubmitting(cleared, if env.rateCheck.Err? then env.rateCheck.error else InvalidDataError, true);
      var (st2, effects) := Attempt(st1, env);
      (st2.(isSubmitting := false), effects)
  }

  /** The email address never reaches the store: two forms that differ only
      in their email submit identically. */
  lemma EmailNeverStored(st: FormState, env: Environment, email: JsString)
    requires IsValid(st.form, env.parses) && IsValid(st.form.(email := email), env.parses)
    ensures HandleSubmit(st.(form := st.form.(email := email)), env).1 == HandleSubmit(st, env).1
  {
    var st' := st.(form := st.form.(email := email));
    assert Payload(st'.form) == Payload(st.form);
    AttemptEffectsFollowPayload(
      st'.(errors := NoErrors, isSubmitting := true, submitError := None, rateLimitInfo := None),
      st.(errors := NoErrors, isSubmitting := true, submitError := None, rateLimitInfo := None), env);
  }

  /** What a submission does to the outside world depends on the form only
      through the record handed to the store. */
  lemma AttemptEffectsFollowPayload(st1: FormState, st2: FormState, env: Environment)
    requires Payload(st1.form) == Payload(st2.form)
    ensures Attempt(st1, env).1 == Attempt(st2, env).1
  {
  }
}

=== FILE: use_questions.dfy ===
/** hooks/use-questions.ts: the question pool with its three built-in
    fallbacks, the load transition driven by the outcome of
    `fetchAndParseCSV`, and the random pick. */
module UseQuestions {

  import opened Results
  import opened Js
  import opened CsvParser

  /** The questions shown when the feed yields nothing. */
  const Fallback: seq<Question> := [
    Question(
      Lit("How can I tell the difference between a rabbit and a cat?"),
      Lit("http://cooking.stackexchange.com/questions/56418/how-can-i-tell-the-difference-between-a-rabbit-and-a-cat"),
      Lit("Cooking")),
    Question(
      Lit("Why does my code work on Tuesdays but not on Wednesdays?"),
      Lit("https://stackoverflow.com/questions/example"),
      Lit("Stack Overflow")),
    Question(
      Lit("Is it normal for my houseplant to start speaking French?"),
      Lit("https://gardening.stackexchange.com/questions/example"),
      Lit("Gardening"))
  ]

  const LoadErrorMessage: JsString := Lit("Failed to load questions from CSV")

  /** The hook's state. */
  datatype PoolState = PoolState(questions: seq<Question>, isLoading: bool, error: Option<JsString>)

  /** Before the load: the fallbacks, loading, no error. */
  const Initial := PoolState(Fallback, true, None)

  /** The pool never runs dry. */
  predicate Valid(s: PoolState) {
    |s.questions| > 0
  }

  /** How `await fetchAndParseCSV(CSV_URL)` ended. */
  datatype LoadOutcome = Fetched(csv: seq<Question>) | Threw

  /** The load outcome the fetch wrapper produces for a response. */
  function OutcomeOf(response: CsvParser.Response): (o: LoadOutcome)
    ensures o.Fetched? <==> response.Response? && response.ok
    ensures o.Fetched? ==> o.csv == ParseCsv(response.body)
  {
    match FetchAndParseCsv(response)
    case Ok(qs) => Fetched(qs)
    case Err(_) => Threw
  }

  /** `loadQuestions()`: start loading with no error, then take a non-empty
      feed, or fall back (with an error message when the fetch threw), and
      stop loading whatever happened. */
  function LoadQuestions(s: PoolState, outcome: LoadOutcome): (r: PoolState)
    ensures Valid(r)
    ensures !r.isLoading
    ensures outcome.Fetched? && |outcome.csv| > 0 ==> r.questions == outcome.csv && r.error.None?
    ensures outcome.Fetched? && |outcome.csv| == 0 ==> r.questions == Fallback && r.error.None?
    ensures outcome.Threw? ==> r.questions == Fallback && r.error == Some(LoadErrorMessage)
  {
    var loading := s.(isLoading := true, error := None);
    var settled :=
      match outcome
      case Fetched(csv) =>
        if |csv| > 0 then loading.(questions := csv) else loading.(questions := Fallback)
      case Threw => loading.(error := Some(LoadErrorMessage), questions := Fallback);
    settled.(isLoading := false)
  }

  /** The pool is never empty, from the initial state through any sequence
      of loads. */
  lemma {:induction false} PoolNeverEmpty(outcomes: seq<LoadOutcome>)
    ensures Valid(Loads(outcomes))
  {
    if outcomes != [] {
      PoolNeverEmpty(outcomes[..|outcomes| - 1]);
    }
  }

  /** The state after the given loads, from the initial one. */
  function Loads(outcomes: seq<LoadOutcome>): PoolState {
    if outcomes == [] then Initial
    else LoadQuestions(Loads(outcomes[..|outcomes| - 1]), outcomes[|outcomes| - 1])
  }

  /** `getRandomQuestion()` with `Math.random()` given as `num / den`: the
      question at the drawn index; the fallback branch for an empty pool is
      never taken in a valid state. */
  function GetRandomQuestion(s: PoolState, num: nat, den: nat): (q: Question)
    requires num < den
    ensures Valid(s) ==>
      FloorRandomIndex(|s.questions|, num, den) < |s.questions| &&
      q == s.questions[FloorRandomIndex(|s.questions|, num, den)]
    ensures Valid(s) ==> q in s.questions
    ensures !Valid(s) ==> q == Fallback[0]
  {
    if |s.questions| == 0 then Fallback[0]
    else s.questions[FloorRandomIndex(|s.questions|, num, den)]
  }

  /** Every question in the pool can be drawn. */
  lemma EveryQuestionReachable(s: PoolState, k: nat)
    requires k < |s.questions|
    ensures GetRandomQuestion(s, k, |s.questions|) == s.questions[k]
  {
    FloorRandomIndexReaches(|s.questions|, k);
  }

  /** `totalQuestions`: the pool's size, at least one in a valid state. */
  function TotalQuestions(s: PoolState): (n: nat)
    ensures n == |s.questions|
    ensures Valid(s) ==> n >= 1
    ensures n == 0 ==> s.questions == []
  {
    |s.questions|
  }
}

=== FILE: use_rate_limit.dfy ===
/** hooks/use-rate-limit.ts: the rate-limit status the hook exposes and its
    transitions, with the result of `checkRateLimit()` (not part of this
    model) passed in. */
module UseRateLimit {

  import opened Results
  import opened Js
  import Firestore

  /** The hook's state. */
  datatype Status = Status(isAllowed: bool, reason: Option<JsString>, retryAfter: Option<int>, isLoading: bool)

  /** Before anything settles: allowed, and loading. */
  const Initial := Status(true, None, None, true)

  /** The status once a check settles: a returned decision is copied
      verbatim; a thrown error fails open. */
  function Settle(outcome: Result<Firestore.RateLimitCheck, JsError>): (r: Status)
    ensures !r.isLoading
    ensures outcome.Ok? ==>
      r.isAllowed == outcome.value.allowed && r.reason == outcome.value.reason &&
      r.retryAfter == outcome.value.retryAfter
    ensures outcome.Err? ==> r.isAllowed && r.reason.None? && r.retryAfter.None?
  {
    match outcome
    case Ok(check) => Status(check.allowed, check.reason, check.retryAfter, false)
    case Err(_) => Status(true, None, None, false)
  }

  /** The mount effect with the Firebase flag off: allowed, not loading, and no check. */
  const FlagOff := Status(true, None, None, false)

  /** `recheckRateLimit` before its check settles: loading, nothing else changed. */
  function BeginRecheck(s: Status): (r: Status)
    ensures r.isLoading
    ensures r.isAllowed == s.isAllowed && r.reason == s.reason && r.retryAfter == s.retryAfter
  {
    s.(isLoading := true)
  }

  /** What can happen to the hook. */
  datatype Event =
    | MountedWithFlagOff
    | CheckSettled(outcome: Result<Firestore.RateLimitCheck, JsError>)
    | RecheckStarted

  function Step(s: Status, e: Event): Status {
    match e
    case MountedWithFlagOff => FlagOff
    case CheckSettled(outcome) => Settle(outcome)
    case RecheckStarted => BeginRecheck(s)
  }

  /** The status after a sequence of events, starting from the initial one. */
  function Run(events: seq<Event>): Status {
    if events == [] then Initial else Step(Run(events[..|events| - 1]), events[|events| - 1])
  }

  /** The event is a check that returned a denial. */
  predicate IsDenial(e: Event) {
    e.CheckSettled? && e.outcome.Ok? && !e.outcome.value.allowed
  }

  /** The hook reports "not allowed" only when a check it ran returned
      `allowed = false`: the initial state, the flag-off state and every
      failure are permissive. */
  lemma {:induction false} DenialComesFromCheck(events: seq<Event>)
    ensures !Run(events).isAllowed ==> exists i :: 0 <= i < |events| && IsDenial(events[i])
  {
    if events != [] && !Run(events).isAllowed {
      var last := |events| - 1;
      var init := events[..last];
      if !IsDenial(events[last]) {
        assert events[last].RecheckStarted?;
        DenialComesFromCheck(init);
        var i :| 0 <= i < |init| && IsDenial(init[i]);
        assert events[i] == init[i];
      }
    }
  }

  /** Once the last check settles, the status is its verbatim copy or the
      fail-open default, and no longer loading. */
  lemma LastSettledWins(events: seq<Event>, outcome: Result<Firestore.RateLimitCheck, JsError>)
    ensures Run(events + [CheckSettled(outcome)]) == Settle(outcome)
    ensures !Run(events + [CheckSettled(outcome)]).isLoading
  {
    assert (events + [CheckSettled(outcome)])[..|events|] == events;
  }
}
